=== FILE: README.md ===
# Package bookkeeping of the docx gem

This project models, in Dafny, how the docx Ruby gem opens and saves Office
packages. `Docx::Document` handles word-processing `.docx` files and
`Docx::Worksheet` handles spreadsheet `.xlsx` files. The model covers:

- **Part discovery.** The `Override` elements of `[Content_Types].xml` are
  scanned in manifest order. A `PartName` is kept when it contains a role
  substring (`header`/`footer`, `charts/ch`, `diagrams`, `worksheets`,
  `drawings`, `comments`), and its leading `/` is dropped.
- **Loading.** Only discovered paths that the archive holds are loaded.
  Missing ones are skipped without error.
- **Root namespace normalisation.** In `Document`, the main part, headers,
  footers, charts and diagrams get a fixed set of root attributes assigned,
  and then go through one serialise-and-parse pass. In `Worksheet`, only
  charts, drawings and comments get a set. The workbook, shared strings and
  worksheets are reparsed with nothing assigned. Styles are parsed once and
  left as they are in both.
- **The edit buffer `@replace`.** The last write for a path wins.
- **`update`.** It serialises the tracked parts into the buffer.
- **`save` / `save_and_return`.** They stream every original entry in order,
  substituting buffered bytes.
- **`Document` queries.** `paragraphs`, `tables`, `bookmarks`, `font_size`,
  `to_s` and `to_html`.

## Structure

- `wrappers.dfy`: `Option` and `Result`.
- `zip.dfy`: the archive, as a sequence of named byte entries with unique
  names, and `find_entry`/`read`.
- `xml.dfy`: parsed parts. A tree is either rootless or has root attributes
  and a document-order list of the elements the code queries. The XML engine
  (parse, `to_xml`, `serialize`) is a value of function type. A tree's
  reparse is `parse(to_xml(t))`.
- `discovery.dfy`: substring matching (`String#include?`), roles, the
  manifest's part names, discovered paths, and the present/missing split.
- `namespaces.dfy`: the namespace sets, with root normalisation as a map
  override.
- `part_loader.dfy`: loading one part, loading one role's list (a loop
  proved against a recursive definition), and the errors `initialize` raises.
- `package_writer.dfy`: the index-paired writes of `update` and the
  substituting copy of `save`.
- `ruby_string.dfy`: `Array#join` and `String#to_i`.
- `document.dfy`: `class Document`.
- `worksheet.dfy`: `class Worksheet`.

Zip and Nokogiri are collaborators whose code is not part of this model.

- **Reading and writing the archive.** The model reads a given entry
  sequence and returns the written entry sequence.
- **Parsing and serialising XML.** These are uninterpreted function values.
  Properties that need the serialise-and-parse pass to preserve a tree assume
  it under the predicate `Xml.RoundTrips`.

Callers edit a loaded tree in place. In the model the same thing is an
assignment to the class's field.

Behaviour of the code that the model keeps as it is:

- **`font_size`.** It divides with Ruby's `Integer#/`, which floors. For
  divisor 2, Dafny's `/` is the same floor.
- **Styles on save.** Neither class serialises the styles part on save.
  Styles keep their original bytes unless `replace_entry` was called for them.
- **Malformed required parts.** Parsing never raises in the code (Nokogiri
  recovers). Opening fails only on two kinds of error.
  - A required entry is missing.
  - A part parses without a root element while root attributes are being
    assigned (a `NoMethodError` on `nil`).
- **Main document part on `Document#save`.** `update` always overwrites the
  buffer for `word/document.xml` with the serialised main tree. This happens
  even when `replace_entry` was called for that path before.

## Model

| member | source | states |
|---|---|---|
| Zip.Read | lib/docx/document.rb:39 | `find_entry`/`read` finds a path exactly when an entry has that name, and yields that entry's bytes |
| Xml.Select | lib/docx/document.rb:165 | an XPath selection keeps exactly the nodes of the document that have the queried kind, and no more nodes than there are |
| Xml.SelectAppend | lib/docx/document.rb:165 | selection keeps document order: selecting from a concatenation concatenates the selections |
| Discovery.Matches | lib/docx/document.rb:33-34 | a `PartName` that passes any role's substring test has at least six characters, so dropping its first character is always defined |
| Discovery.Contains | lib/docx/document.rb:33 | `String#include?`: a name can include a substring only if the substring is no longer than the name |
| Discovery.OverridePartNames | lib/docx/document.rb:32 | the scan yields exactly the `PartName`s of the `Override` elements, at most one per element (order and repeats: `OverridePartNamesAppend`) |
| Discovery.OverridePartNamesAppend | lib/docx/document.rb:32 | the `Override` scan keeps manifest order and repeats: scanning a concatenation concatenates the scans |
| Discovery.OverridePartNamesSingle | lib/docx/document.rb:32 | one element contributes its `PartName` exactly when it is an `Override` |
| Discovery.PartNames | lib/docx/document.rb:28-32 | the part names read from the manifest are exactly the `PartName`s of its `Override` elements |
| Discovery.Discovered | lib/docx/document.rb:31-36 | at most one path per manifest name, each at least five characters long (its name, minus the leading character, passed a role test) |
| Discovery.CollectParts | lib/docx/document.rb:31-36 | the discovery loop appends exactly the matching part names, minus their first character, in manifest order |
| Discovery.DiscoveredAppend | lib/docx/document.rb:32-36 | discovery over a concatenated manifest is the concatenation of the discoveries, so manifest order is kept |
| Discovery.DiscoveredSingle | lib/docx/document.rb:33-34 | one part name yields its tail if it contains the role substring and nothing otherwise |
| Discovery.DiscoveredMember | lib/docx/document.rb:32-36 | a path is discovered if and only if some manifest name contains the role substring and has that path as its tail |
| Discovery.NeverDiscovered | lib/docx/document.rb:33-34 | a path that fails the role test under every leading character is never discovered |
| Discovery.ContainsBeyondFirst | lib/docx/document.rb:33 | if a name includes a substring, then every letter of the substring after its first occurs in the name's tail, and the first letter occurs there too unless the substring starts the name |
| Discovery.AbsentLetterExcludes | lib/docx/document.rb:33 | a path lacking a non-first letter of a role substring is never discovered for that role |
| Discovery.Present | lib/docx/document.rb:39 | the paths the loading loop reads are exactly the discovered paths that the archive holds |
| Discovery.Missing | lib/docx/document.rb:39 | the paths the loading loop skips are exactly the discovered paths that the archive lacks |
| Discovery.PresentCount | lib/docx/document.rb:38-39 | the present count is the discovered count minus the missing count |
| Discovery.PresentAppend | lib/docx/document.rb:38-39 | the present paths of a concatenation are the concatenation of the present paths |
| Namespaces.Normalize | lib/docx/document.rb:41-54 | after the assignments, each assigned key maps to its fixed value, and every other root attribute is present and valued exactly as before |
| Namespaces.NormalizeRoot | lib/docx/document.rb:40-56 | normalisation touches only the root's attributes, never the elements below it, and keeps a rootless part rootless |
| Namespaces.NormalizeIdempotent | lib/docx/document.rb:41-54 | normalising twice equals normalising once |
| Namespaces.MainNamespacesTable | lib/docx/document.rb:49 | the base set assigns `mc:Ignorable` = "w14 w15 w16se w16cid wp14" and assigns neither `xmlns:c` nor `xmlns:a` |
| Namespaces.ChartNamespacesExtendMain | lib/docx/document.rb:94-109 | the chart/diagram set has the base keys plus exactly `xmlns:c` and `xmlns:a`, with the base values on the base keys |
| Namespaces.ChartSetCarriesPrefixes | lib/docx/document.rb:108-109 | whatever a root declared, the chart set leaves `xmlns:c` and `xmlns:a` at their fixed values |
| Namespaces.MainKeepsChartPrefixes | lib/docx/document.rb:61-74 | the main part and header/footer parts never receive `xmlns:c`/`xmlns:a`: those keep whatever the part declared |
| Namespaces.NormalizeNothing | lib/docx/worksheet.rb:47-51 | a part with no assignments keeps its root exactly as parsed |
| PartLoader.ReadRequired | lib/docx/document.rb:26 | reading a required part fails, with that path, exactly when the archive lacks it, and otherwise yields its bytes |
| PartLoader.LoadPart | lib/docx/document.rb:40-56 | loading fails exactly when the part parses without a root and there are attributes to assign; otherwise it yields the reparsed normalised tree |
| PartLoader.LoadParts | lib/docx/document.rb:37-58 | the loading loop returns the recursive definition of a role's loaded list, including its first error |
| PartLoader.Loaded | lib/docx/document.rb:37-58 | a role's loaded list has at most one tree per discovered path, and the only error it can raise is a rootless part |
| PartLoader.LoadStep | lib/docx/document.rb:38-57 | one loop iteration: an earlier error propagates, a missing path leaves the list unchanged, a present one appends at most one tree or raises `RootMissing` for that path |
| PartLoader.LoadedFailureSticks | lib/docx/document.rb:38-58 | once loading a prefix raised, loading the whole list raises the same error |
| PartLoader.LoadedSkipsMissing | lib/docx/document.rb:39 | loading the discovered paths equals loading only the present ones, so missing paths leave no trace and raise nothing |
| PartLoader.LoadedShape | lib/docx/document.rb:38-39 | a loaded list has one tree per present path, in discovered order; its length is the discovered count minus the missing count |
| PartLoader.LoadedFailureCause | lib/docx/document.rb:40-41 | the only error loading raises is a root assignment on a present part that parsed without a root |
| PartLoader.LoadedWithoutNamespaces | lib/docx/worksheet.rb:45-53 | a role whose roots receive no assignment never fails to load |
| PartLoader.LoadedRootsNormalized | lib/docx/document.rb:40-56 | with a faithful reparse, each loaded tree's root is the original root overridden by the role's namespace set, elements unchanged |
| PackageWriter.TrackedWritesElsewhere | lib/docx/document.rb:261-263 | an `each_with_index` write loop leaves every key it does not write unchanged |
| PackageWriter.TrackedWrites | lib/docx/document.rb:261-271 | an `each_with_index` write loop keeps every buffered key and adds only declared paths |
| PackageWriter.TrackedWritesLast | lib/docx/document.rb:247-249 | in the write loop, the last write to a path wins |
| PackageWriter.TrackedWritesPairing | lib/docx/worksheet.rb:232-234 | with distinct declared paths, path i gets tree i while i is below the loaded count; the remaining declared paths keep what the buffer held |
| PackageWriter.MissingPartShiftsPairing | lib/docx/worksheet.rb:232-234 | with sheet1 missing and sheet2 present, sheet2's tree is written under sheet1's path and sheet2's path is not written |
| PackageWriter.StreamEntries | lib/docx/document.rb:215-223 | the streaming loop writes exactly the original names in original order, with buffered bytes where a key is set and the original bytes otherwise |
| PackageWriter.Substitute | lib/docx/document.rb:215-223 | the written archive has the original length and names in the original order, and every entry with nothing buffered is copied verbatim |
| PackageWriter.SubstituteSpec | lib/docx/document.rb:215-223 | save output keeps names and order, substitutes buffered entries, copies the rest verbatim, and never emits a buffered key that names no entry |
| PackageWriter.SubstituteUntouched | lib/docx/document.rb:215-223 | with nothing buffered for any entry, the output is the original archive |
| RubyString.JoinLength | lib/docx/document.rb:201 | joining n ≥ 1 strings gives their total length plus n−1 separators |
| RubyString.Join | lib/docx/document.rb:201 | `Array#join`: no pieces give the empty string, and the first piece starts the result |
| RubyString.JoinPieceAt | lib/docx/document.rb:200-207 | the i-th string sits at its start offset in the join |
| RubyString.JoinSeparatorAfter | lib/docx/document.rb:200-207 | a string that is not the last is followed by exactly one separator, after which the next string starts |
| RubyString.SeparatorChars | lib/docx/document.rb:200-207 | after a string that is not the last, the join holds the separator character by character |
| RubyString.JoinEveryPiece | lib/docx/document.rb:200-207 | every string sits at its start offset in the join |
| RubyString.JoinEverySeparator | lib/docx/document.rb:200-207 | exactly one separator follows every string but the last |
| RubyString.LeadingDigits | lib/docx/document.rb:185 | `to_i` reads the longest prefix of the text that consists of digits only: a digit-only prefix not followed by a digit |
| RubyString.SkipSpace | lib/docx/document.rb:185 | `to_i` skips exactly the leading white space: every skipped character is white space and the rest starts with none |
| RubyString.UnsignedValue | lib/docx/document.rb:185 | after the sign, text with no digit at all reads as 0 |
| RubyString.ToI | lib/docx/document.rb:185 | `to_i` is negative only after a leading minus sign, and is 0 for text with no digit at all |
| RubyString.ToIUnsigned | lib/docx/document.rb:185 | on a non-empty all-digit string, `to_i` is the string's decimal value |
| RubyString.ToISigned | lib/docx/document.rb:185 | after a `-` sign `to_i` is the negated digits' value, and after a `+` sign it is the value itself |
| RubyString.LeadingDigitsOfDigits | lib/docx/document.rb:185 | on an all-digit string, `to_i` reads the whole string |
| RubyString.DecimalValue | lib/docx/document.rb:185 | the decimal text of a number reads back as that number |
| RubyString.ToIDecimal | lib/docx/document.rb:185 | `to_i` of a decimal numeral is its value, unsigned, after `-` and after `+` |
| RubyString.SkipSpaceNone | lib/docx/document.rb:185 | text that does not start with white space is read from its first character |
| RubyString.UnsignedOfDigits | lib/docx/document.rb:185 | an all-digit string has no `0d` prefix and reads as its own decimal value |
| RubyString.PrefixedValue | lib/docx/document.rb:185 | a `0d` or `0D` prefix before the digits is read over |
| RubyString.NegatedPrefixedValue | lib/docx/document.rb:185 | a `0d` or `0D` prefix after a minus sign is read over and the value negated |
| RubyString.ToIDecimalPrefix | lib/docx/document.rb:185 | `to_i` of a decimal numeral after `0d`, `0D` or `-0d` is its value, negated after the minus sign |
| DocxDocument.HalfPointsToPoints | lib/docx/document.rb:185 | half-points divided by 2 round toward negative infinity: 2·p ≤ v < 2·p + 2 |
| DocxDocument.OpenParts | lib/docx/document.rb:23-142 | `initialize` fails with `word/document.xml` not found when that entry is missing, and otherwise raises only for a missing required entry or a rootless part |
| DocxDocument.OpenFailures | lib/docx/document.rb:23-142 | opening raises only for `word/document.xml`, `[Content_Types].xml` or `word/styles.xml` missing, or for a part the archive holds whose normalised parse has no root |
| DocxDocument.Document.constructor | lib/docx/document.rb:23-24 | given lists discovered from the manifest, a new document holds the loaded parts, an empty edit buffer, and is valid |
| DocxDocument.Document.Open | lib/docx/document.rb:23-142 | opening fails exactly when the stepwise `initialize` raises, with the same error; otherwise the fresh document holds exactly its parts, an empty buffer and the manifest's discovered lists |
| DocxDocument.Document.Paragraphs | lib/docx/document.rb:164-166 | the paragraphs are exactly the main part's paragraph elements |
| DocxDocument.Document.Tables | lib/docx/document.rb:177-179 | the tables are exactly the main part's table elements |
| DocxDocument.Document.BookmarkStarts | lib/docx/document.rb:170 | the selection holds exactly the main part's bookmark starts |
| DocxDocument.Document.Bookmarks | lib/docx/document.rb:168-175 | the loop builds the Hash of the bookmark starts: its table is `BookmarkMap` and its key order is `BookmarkOrder`. There is no `_GoBack` key, and the keys are exactly the other bookmark-start names. Each value is a bookmark of its name, the last one in document order when names repeat. The key order lists each key once |
| DocxDocument.BookmarkOrder | lib/docx/document.rb:168-175 | the Hash's key order never holds `_GoBack` |
| DocxDocument.BookmarkOrderKeys | lib/docx/document.rb:168-175 | the key order lists exactly the table's keys, each once |
| DocxDocument.BookmarkOrderStable | lib/docx/document.rb:172-173 | storing later bookmarks only appends to the key order, so a repeated name keeps its first place |
| DocxDocument.BookmarkMap | lib/docx/document.rb:168-175 | the table never has a `_GoBack` key |
| DocxDocument.BookmarkMapKeys | lib/docx/document.rb:168-175 | the keys are exactly the names of the starts other than `_GoBack`, and each key holds a start of that name |
| DocxDocument.BookmarkMapLast | lib/docx/document.rb:172-173 | a start whose name no later start repeats is the one stored under its name |
| DocxDocument.BookmarkMapLasts | lib/docx/document.rb:172-173 | every start whose name no later start repeats is the one stored under its name |
| DocxDocument.Document.DefaultSizes | lib/docx/document.rb:184 | the selection holds exactly the styles' default `w:sz` elements |
| DocxDocument.Document.FontSize | lib/docx/document.rb:183-186 | nil exactly when there is no default size; otherwise the floor half of its `to_i` value |
| DocxDocument.Document.ReplaceEntry | lib/docx/document.rb:247-249 | the buffer gains the path with the given bytes, replacing an earlier write |
| DocxDocument.Document.ToS | lib/docx/document.rb:200-202 | `to_s` of a document without paragraphs is empty; with n ≥ 1 paragraphs its length is their total plus n−1 line breaks |
| DocxDocument.Document.ToHtml | lib/docx/document.rb:205-207 | `to_html` of a document without paragraphs is empty; with n ≥ 1 paragraphs its length is their total plus n−1 two-character separators |
| DocxDocument.Document.Updated | lib/docx/document.rb:258-272 | the corrected `update` (see Findings) keeps every buffered key, always buffers `word/document.xml`, and buffers nothing but the main part and the discovered header/footer, chart and diagram paths |
| DocxDocument.Document.WriteTracked | lib/docx/document.rb:261-263 | the index-paired write loop leaves the buffer as the paired writes define |
| DocxDocument.Document.Update | lib/docx/document.rb:258-272 | corrected `update` (see Findings): the buffer becomes the main part's serialisation, then the index-paired header/footer, chart and diagram writes |
| DocxDocument.Document.Save | lib/docx/document.rb:212-226 | corrected `save` (see Findings): after update, the output is the original archive with buffered bytes substituted |
| DocxDocument.Document.SaveAndReturn | lib/docx/document.rb:228-243 | corrected `save_and_return` (see Findings): the same update and substituted copy, returned instead of written to a path |
| DocxDocument.Document.SaveAsWritten | lib/docx/document.rb:258-261 | as written, saving buffers the main part and then raises on the unassigned `@header_and_footers` |
| DocxDocument.MainPartMatchesNoRole | lib/docx/document.rb:33-34 | `word/document.xml` passes none of the header, footer, chart and diagram tests |
| DocxDocument.MainPartNoFooter | lib/docx/document.rb:33 | `word/document.xml` does not include "footer" |
| DocxDocument.UpdateWritesMainPart | lib/docx/document.rb:258-259 | after update, `word/document.xml` holds the serialised main tree, overriding any earlier `replace_entry` on it |
| DocxDocument.SaveOutput | lib/docx/document.rb:212-226 | save keeps entry names and order; the main entry carries the serialised main tree; untracked entries carry buffered bytes if set and the original bytes otherwise |
| DocxDocument.ToHtmlSeparators | lib/docx/document.rb:205-207 | `to_html` puts the two characters backslash and `n` right after each paragraph's fragment but the last, never a line break |
| DocxDocument.JoinedHtmlSeparators | lib/docx/document.rb:205-207 | any list of fragments joined with backslash-`n` has those two characters right after every fragment but the last |
| DocxDocument.ToSSeparators | lib/docx/document.rb:200-202 | `to_s` puts one line break right after each paragraph's text but the last |
| DocxDocument.JoinedLineBreaks | lib/docx/document.rb:200-202 | any list of texts joined with a line break has one right after every text but the last |
| DocxDocument.OpenedDocument | lib/docx/document.rb:31-142 | after opening, the lists are the manifest's discovered paths, and each loaded list's length is discovered minus missing. Headers and footers are loaded with the base set, charts and diagrams with the chart set. Styles are parsed with no normalisation |
| DocxDocument.OpenedLoadedRoots | lib/docx/document.rb:37-142 | with a faithful reparse, each loaded header, footer, chart and diagram is its archive part's root with its role's namespace set over its own attributes |
| DocxDocument.OpenedChartPrefixes | lib/docx/document.rb:91-142 | with a faithful reparse, every chart and diagram root carries `xmlns:c` and `xmlns:a` with their fixed values |
| DocxDocument.OpenedHeaderPrefixes | lib/docx/document.rb:37-57 | with a faithful reparse, a header or footer root has `xmlns:c` and `xmlns:a` exactly as its archive part had them |
| DocxDocument.OpenedDocLoaded | lib/docx/document.rb:59-75 | after opening, `@doc` is the main part parsed, given the base namespace set on its root, and reparsed |
| DocxDocument.OpenedMainRoot | lib/docx/document.rb:60-75 | with a faithful reparse, the main part's root is its own root overridden by the base namespace set |
| DocxDocument.HalfPointExamples | lib/docx/document.rb:183-186 | "24" half-points give 12 points, and so do "25" |
| DocxDocument.ToIOf24 | lib/docx/document.rb:185 | `to_i` of "24" is 24 |
| DocxDocument.ToIOf25 | lib/docx/document.rb:185 | `to_i` of "25" is 25 |
| DocxWorksheet.Worksheet.constructor | lib/docx/worksheet.rb:23-24 | given lists discovered from the manifest, a new worksheet holds the loaded parts, an empty edit buffer, and is valid |
| DocxWorksheet.OpenParts | lib/docx/worksheet.rb:23-111 | `initialize` fails with `xl/workbook.xml` not found when that entry is missing, and otherwise raises only for a missing required entry or a rootless part |
| DocxWorksheet.Worksheet.Open | lib/docx/worksheet.rb:23-111 | opening fails exactly when the stepwise `initialize` raises, with the same error; otherwise the fresh worksheet holds exactly its parts, an empty buffer and the manifest's discovered lists |
| DocxWorksheet.Worksheet.ReplaceEntry | lib/docx/worksheet.rb:216-218 | the buffer gains the path with the given bytes, replacing an earlier write |
| DocxWorksheet.Worksheet.WriteTracked | lib/docx/worksheet.rb:232-234 | the index-paired write loop leaves the buffer as the paired writes define |
| DocxWorksheet.Worksheet.Updated | lib/docx/worksheet.rb:227-247 | `update` keeps every buffered key, always buffers the workbook and shared strings, and buffers nothing but those and the discovered worksheet, chart, drawing and comment paths |
| DocxWorksheet.Worksheet.Update | lib/docx/worksheet.rb:227-247 | the buffer becomes the workbook and shared-strings serialisations, then the index-paired worksheet, chart, drawing and comment writes |
| DocxWorksheet.Worksheet.Save | lib/docx/worksheet.rb:181-195 | after update, the output is the original archive with buffered bytes substituted |
| DocxWorksheet.Worksheet.SaveAndReturn | lib/docx/worksheet.rb:197-212 | the same update and substituted copy, returned instead of written to a path |
| DocxWorksheet.WorkbookMatchesNoRole | lib/docx/worksheet.rb:39-98 | `xl/workbook.xml` passes none of the worksheet, chart, drawing and comment tests |
| DocxWorksheet.SharedStringsMatchNoRole | lib/docx/worksheet.rb:39-98 | `xl/sharedStrings.xml` passes none of the role tests |
| DocxWorksheet.StylesMatchNoRole | lib/docx/worksheet.rb:39-98 | `xl/styles.xml` passes none of the role tests |
| DocxWorksheet.FixedPartUndiscovered | lib/docx/worksheet.rb:39-98 | the workbook, shared strings and styles are never among the discovered paths |
| DocxWorksheet.UpdateTrackedElsewhere | lib/docx/worksheet.rb:232-246 | a path no role discovered keeps, through the four write loops, what the workbook and shared-strings writes left |
| DocxWorksheet.UpdateFixedParts | lib/docx/worksheet.rb:227-231 | update always sets the workbook and shared strings to their serialisations, and leaves the styles entry as it was in the buffer |
| DocxWorksheet.SaveOutput | lib/docx/worksheet.rb:181-195 | save keeps entry names and order; workbook and shared strings carry their serialisations; styles carry buffered bytes if set, else the original bytes |
| DocxWorksheet.UpdateSheetPairing | lib/docx/worksheet.rb:232-234 | declared worksheet i gets loaded tree i below the loaded count; the last (missing-count) declared paths keep what was buffered |
| DocxWorksheet.OpenFailures | lib/docx/worksheet.rb:23-111 | opening raises only for a missing required part or a rootless chart, drawing or comment, never for a worksheet |
| DocxWorksheet.OpenedWorksheet | lib/docx/worksheet.rb:38-111 | after opening, the lists are the manifest's discovered paths and each loaded list's length is discovered minus missing |
| DocxWorksheet.OpenedPartsUntouched | lib/docx/worksheet.rb:27-53 | the workbook, shared strings and worksheets are the archive's parts after one reparse, with no attribute assigned |
| DocxWorksheet.OpenedParts | lib/docx/worksheet.rb:23-111 | the stepwise results of a successful open |

## Left out

- Opening the zip file from a path, `zip.close` and the block form of `open` (document.rb:79-82, worksheet.rb:57-60): file handling. The model takes the archive's entries as its input. The block form yields before charts are loaded and closes the archive; it is not modelled.
- Writing to a destination path or a `StringIO`: `Save` returns the written entry sequence, and `SaveAndReturn` returns the same sequence as its buffer.
- Nokogiri parsing, `to_xml`, `serialize` and XPath: parsing and serialising are uninterpreted functions. XPath selection is a filter over a document-order list of the queried element kinds, so nesting is not modelled.
- The `Paragraph`, `Table` and `Bookmark` projection classes are not part of this model. A paragraph's `to_s`/`to_html` is an opaque string carried by its node, and a bookmark is its start node.
- `document_properties` and `each_paragraph`: a hash of `font_size` and an iterator over `paragraphs`, with nothing beyond those two.
- Worksheet `paragraphs`, `bookmarks`, `tables`, `to_s`, `to_html`, `font_size` and `document_properties` (worksheet.rb:117-176): they read `@doc`, which `Worksheet` never assigns, or query word-processing names in a spreadsheet.
- `DocxDocument.Document.FontSize`: a default `w:sz` element without a `val` attribute raises in the code. The model's node always carries a value.
- `RubyString.ToI`: underscores between digits, which `String#to_i` accepts, are not modelled.
- `DocxDocument.Document.ReplaceEntry`: `nil` or `false` contents, which the save loop treats as not buffered, are not modelled. Contents are always bytes.
- An `Override` element without a `PartName` raises in the code. The model's override nodes always carry one.
- `DocxDocument.Document.Open`: the raw document, content-types and styles bytes are not kept on the object; only the loaded trees are.
- `lib/docx.rb` is autoload glue and is not part of this model.

## Findings

| source | as written | input that shows it | evidently intended | confidence | as-written member | corrected member |
|---|---|---|---|---|---|---|
| lib/docx/document.rb:258-272 | `update` iterates `@header_and_footers`, `@charts` and `@diagrams`, which nothing assigns (`initialize` keeps these lists in locals at lines 31, 84 and 114). It raises `NoMethodError` on `nil` after buffering the main part, so `save` and `save_and_return` always fail. Their streaming loops also name an undefined `zip` (lines 215 and 231). | any opened document, then `save` | iterate the discovered header/footer, chart and diagram paths, pairing each with its loaded tree by index, and stream the opened archive | high, not executed | DocxDocument.Document.SaveAsWritten | DocxDocument.Document.Save |

=== FILE: discovery.dfy ===
/**
 * Manifest-driven part discovery: the `Override` part names of
 * `[Content_Types].xml`, in manifest order, are filtered by a role substring
 * and stripped of their leading `/`; only the paths the archive holds are
 * loaded afterwards.
 */
module Discovery {
  import opened Wrappers
  import opened Zip
  import opened Xml

  /** `sub` starts at index `i` of `s`. */
  predicate OccursAt(s: string, sub: string, i: nat) {
    i + |sub| <= |s| && s[i..i + |sub|] == sub
  }

  /** Ruby's `String#include?`. */
  predicate Contains(s: string, sub: string)
    ensures Contains(s, sub) ==> |sub| <= |s|
  {
    exists i: nat | i <= |s| :: OccursAt(s, sub, i)
  }

  /** The part categories found through the manifest. */
  datatype Role = HeaderFooter | Chart | Diagram | Worksheet | Drawing | Comment

  /** The substring test each discovery loop applies to a `PartName`. */
  predicate Matches(role: Role, partName: string)
    ensures Matches(role, partName) ==> |partName| >= 6
  {
    match role
    case HeaderFooter => Contains(partName, "header") || Contains(partName, "footer")
    case Chart => Contains(partName, "charts/ch")
    case Diagram => Contains(partName, "diagrams")
    case Worksheet => Contains(partName, "worksheets")
    case Drawing => Contains(partName, "drawings")
    case Comment => Contains(partName, "comments")
  }

  /** `content_types.css('Override')` mapped to each node's `PartName`, in manifest order. */
  function PartNames(manifest: Tree): (names: seq<string>)
    ensures forall name :: name in names <==> OverrideNode(name) in NodesOf(manifest)
  {
    OverridePartNames(NodesOf(manifest))
  }

  function OverridePartNames(nodes: seq<Node>): (names: seq<string>)
    ensures |names| <= |nodes|
    ensures forall name :: name in names <==> OverrideNode(name) in nodes
  {
    if nodes == [] then []
    else
      var last := nodes[|nodes| - 1];
      OverridePartNames(nodes[..|nodes| - 1]) + (if last.OverrideNode? then [last.partName] else [])
  }

  /** The scan keeps manifest order and repeats: it distributes over concatenation of element lists. */
  lemma {:induction false} OverridePartNamesAppend(xs: seq<Node>, ys: seq<Node>)
    ensures OverridePartNames(xs + ys) == OverridePartNames(xs) + OverridePartNames(ys)
    decreases |ys|
  {
    if ys == [] {
      assert xs + ys == xs;
    } else {
      var init := ys[..|ys| - 1];
      assert (xs + ys)[..|xs + ys| - 1] == xs + init;
      OverridePartNamesAppend(xs, init);
    }
  }

  /** One element contributes its part name exactly when it is an `Override`. */
  lemma OverridePartNamesSingle(n: Node)
    ensures OverridePartNames([n]) == if n.OverrideNode? then [n.partName] else []
  {
    assert [n][..0] == [];
  }

  /** The discovered paths: matching part names in manifest order, minus their first character. */
  function Discovered(names: seq<string>, role: Role): (paths: seq<string>)
    ensures |paths| <= |names|
    ensures forall i :: 0 <= i < |paths| ==> |paths[i]| >= 5
  {
    if names == [] then []
    else
      var last := names[|names| - 1];
      Discovered(names[..|names| - 1], role) + (if Matches(role, last) then [last[1..]] else [])
  }

  /** One discovery loop (`content_types.css('Override').each`), appending with `<<`. */
  method CollectParts(names: seq<string>, role: Role) returns (paths: seq<string>)
    ensures paths == Discovered(names, role)
  {
    paths := [];
    for i := 0 to |names|
      invariant paths == Discovered(names[..i], role)
    {
      assert names[..i + 1][..i] == names[..i];
      if Matches(role, names[i]) {
        paths := paths + [names[i][1..]];
      }
    }
    assert names[..|names|] == names;
  }

  /** Discovery keeps manifest order: it distributes over concatenation of manifests. */
  lemma {:induction false} DiscoveredAppend(xs: seq<string>, ys: seq<string>, role: Role)
    ensures Discovered(xs + ys, role) == Discovered(xs, role) + Discovered(ys, role)
    decreases |ys|
  {
    if ys == [] {
      assert xs + ys == xs;
    } else {
      var init := ys[..|ys| - 1];
      assert (xs + ys)[..|xs + ys| - 1] == xs + init;
      DiscoveredAppend(xs, init, role);
    }
  }

  /** A single part name is discovered exactly when it matches the role, as itself minus its first character. */
  lemma DiscoveredSingle(name: string, role: Role)
    ensures Discovered([name], role) == if Matches(role, name) then [name[1..]] else []
  {
    assert [name][..0] == [];
  }

  /** Membership, both directions: a path is discovered iff some matching part name, minus its first character, is it. */
  lemma {:induction false} DiscoveredMember(names: seq<string>, role: Role, path: string)
    ensures path in Discovered(names, role) <==>
      exists j :: 0 <= j < |names| && Matches(role, names[j]) && names[j][1..] == path
    decreases |names|
  {
    if names != [] {
      var init := names[..|names| - 1];
      DiscoveredMember(init, role, path);
      assert forall j :: 0 <= j < |init| ==> init[j] == names[j];
    }
  }

  /** If no one-character extension of `path` matches the role, `path` is never discovered. */
  lemma NeverDiscovered(names: seq<string>, role: Role, path: string)
    requires forall c: char :: !Matches(role, [c] + path)
    ensures path !in Discovered(names, role)
  {
    DiscoveredMember(names, role, path);
    forall j | 0 <= j < |names| && |names[j]| >= 1
      ensures !Matches(role, names[j]) || names[j][1..] != path
    {
      assert names[j] == [names[j][0]] + names[j][1..];
    }
  }

  /**
   * What `s` containing `sub` says about `s[1..]`: every character of `sub`
   * after its first occurs there, and `sub`'s first character either occurs
   * there too or `sub[1..]` starts it.
   */
  lemma ContainsBeyondFirst(s: string, sub: string)
    requires |s| >= 1 && |sub| >= 1
    ensures Contains(s, sub) ==> forall j :: 1 <= j < |sub| ==> sub[j] in s[1..]
    ensures Contains(s, sub) ==> sub[0] in s[1..] || (|sub| <= |s| && s[1..|sub|] == sub[1..])
  {
    if Contains(s, sub) {
      var i: nat :| i <= |s| && OccursAt(s, sub, i);
      forall j | 1 <= j < |sub| ensures sub[j] in s[1..] {
        assert s[1..][i + j - 1] == sub[j];
      }
      if i > 0 {
        assert s[1..][i - 1] == sub[0];
      } else {
        assert s[1..|sub|] == sub[1..];
      }
    }
  }

  /**
   * A path lacking some letter of a role substring, other than its first,
   * is never discovered for that role, whatever its leading `/` was.
   */
  lemma AbsentLetterExcludes(path: string, sub: string, j: nat)
    requires 1 <= j < |sub| && sub[j] !in path
    ensures forall c: char :: !Contains([c] + path, sub)
  {
    forall c: char ensures !Contains([c] + path, sub) {
      var s := [c] + path;
      assert s[1..] == path;
      ContainsBeyondFirst(s, sub);
    }
  }

  /** The paths that `find_entry` finds, in the given order. */
  function Present(a: Archive, paths: seq<string>): (r: seq<string>)
    ensures |r| <= |paths|
    ensures forall p :: p in r <==> p in paths && Read(a, p).Some?
  {
    if paths == [] then []
    else
      var last := paths[|paths| - 1];
      Present(a, paths[..|paths| - 1]) + (if Read(a, last).Some? then [last] else [])
  }

  /** The declared paths the archive lacks, in the given order. */
  function Missing(a: Archive, paths: seq<string>): (r: seq<string>)
    ensures forall p :: p in r <==> p in paths && Read(a, p).None?
  {
    if paths == [] then []
    else
      var last := paths[|paths| - 1];
      Missing(a, paths[..|paths| - 1]) + (if Read(a, last).None? then [last] else [])
  }

  /** Every declared path is either loaded or skipped: the loaded count is the declared count minus the missing count. */
  lemma {:induction false} PresentCount(a: Archive, paths: seq<string>)
    ensures |Present(a, paths)| == |paths| - |Missing(a, paths)|
    decreases |paths|
  {
    if paths != [] {
      PresentCount(a, paths[..|paths| - 1]);
    }
  }

  /** The archive filter keeps order: it distributes over concatenation. */
  lemma {:induction false} PresentAppend(a: Archive, xs: seq<string>, ys: seq<string>)
    ensures Present(a, xs + ys) == Present(a, xs) + Present(a, ys)
    decreases |ys|
  {
    if ys == [] {
      assert xs + ys == xs;
    } else {
      var init := ys[..|ys| - 1];
      assert (xs + ys)[..|xs + ys| - 1] == xs + init;
      PresentAppend(a, xs, init);
    }
  }
}

=== FILE: document.dfy ===
/**
 * `Docx::Document`, the word-processing package: opening discovers and loads
 * the parts, the queries read the normalised main part and styles, and saving
 * serialises the tracked parts into the edit buffer before streaming the
 * original archive with substitutions.
 */
module DocxDocument {
  import opened Wrappers
  import opened Zip
  import opened Xml
  import opened Discovery
  import opened Namespaces
  import opened PartLoader
  import opened PackageWriter
  import opened RubyString

  const MainPart := "word/document.xml"
  const StylesPart := "word/styles.xml"
  const ContentTypesPart := "[Content_Types].xml"

  /** Everything `initialize` computes. */
  datatype Parts = Parts(
    manifest: seq<string>,
    doc: Tree,
    styles: Tree,
    headerAndFooters: seq<string>,
    headerAndFootersXml: seq<Tree>,
    charts: seq<string>,
    chartsXml: seq<Tree>,
    diagrams: seq<string>,
    diagramsXml: seq<Tree>)

  /** `initialize`, step by step, raising at the first missing required part or rootless normalised part. */
  function OpenParts(a: Archive, e: Engine): (r: Result<Parts, Error>)
    ensures Read(a, MainPart).None? ==> r == Failure(EntryNotFound(MainPart))
    ensures r.Failure? ==> r.error.EntryNotFound? || r.error.RootMissing?
  {
    var documentXml :- ReadRequired(a, MainPart);
    var contentTypesXml :- ReadRequired(a, ContentTypesPart);
    var manifest := PartNames(e.parse(contentTypesXml));
    var headerAndFooters := Discovered(manifest, HeaderFooter);
    var headerAndFootersXml :- Loaded(a, headerAndFooters, e, MainNamespaces);
    var doc :- LoadPart(e, MainPart, documentXml, MainNamespaces);
    var stylesXml :- ReadRequired(a, StylesPart);
    var charts := Discovered(manifest, Chart);
    var chartsXml :- Loaded(a, charts, e, ChartNamespaces);
    var diagrams := Discovered(manifest, Diagram);
    var diagramsXml :- Loaded(a, diagrams, e, ChartNamespaces);
    Success(Parts(manifest, doc, e.parse(stylesXml), headerAndFooters, headerAndFootersXml,
                  charts, chartsXml, diagrams, diagramsXml))
  }

  /**
   * Opening fails only for one of the three required entries missing, or for
   * a part the archive holds whose normalised parse has no root.
   */
  lemma OpenFailures(a: Archive, e: Engine)
    requires OpenParts(a, e).Failure?
    ensures var err := OpenParts(a, e).error;
      err in {EntryNotFound(MainPart), EntryNotFound(ContentTypesPart), EntryNotFound(StylesPart)} ||
      (err.RootMissing? && Read(a, err.path).Some? && e.parse(Read(a, err.path).value).NoRoot?)
  {
    if ReadRequired(a, MainPart).Success? && ReadRequired(a, ContentTypesPart).Success? {
      var documentXml := ReadRequired(a, MainPart).value;
      var manifest := PartNames(e.parse(ReadRequired(a, ContentTypesPart).value));
      var headerAndFooters := Discovered(manifest, HeaderFooter);
      if Loaded(a, headerAndFooters, e, MainNamespaces).Failure? {
        LoadedFailureCause(a, headerAndFooters, e, MainNamespaces);
      } else if LoadPart(e, MainPart, documentXml, MainNamespaces).Failure? {
        assert OpenParts(a, e).error == RootMissing(MainPart);
      } else if ReadRequired(a, StylesPart).Success? {
        var charts := Discovered(manifest, Chart);
        var diagrams := Discovered(manifest, Diagram);
        if Loaded(a, charts, e, ChartNamespaces).Failure? {
          LoadedFailureCause(a, charts, e, ChartNamespaces);
        } else {
          LoadedFailureCause(a, diagrams, e, ChartNamespaces);
        }
      }
    }
  }

  predicate IsParagraph(n: Node) { n.ParagraphNode? }
  predicate IsTable(n: Node) { n.TableNode? }
  predicate IsBookmarkStart(n: Node) { n.BookmarkStartNode? }
  predicate IsDefaultSize(n: Node) { n.DefaultSizeNode? }

  /** The paragraph projection's `to_s` and `to_html`. */
  function ParagraphText(n: Node): string {
    if n.ParagraphNode? then n.text else ""
  }

  function ParagraphHtml(n: Node): string {
    if n.ParagraphNode? then n.html else ""
  }

  /** The separator `to_html` joins with: the two characters backslash and `n`, not a line break. */
  const HtmlSeparator := "\\n"

  /** Every node of the list is a bookmark start, as the `//w:bookmarkStart` selection yields. */
  predicate AllBookmarkStarts(starts: seq<Node>) {
    forall i :: 0 <= i < |starts| ==> starts[i].BookmarkStartNode?
  }

  /**
   * The bookmark table built from bookmark starts in document order: `_GoBack`
   * skipped, a later start replacing an earlier one of its name. Other nodes,
   * which the selection never yields, are skipped too.
   */
  function BookmarkMap(starts: seq<Node>): (bookmarks: map<string, Node>)
    ensures "_GoBack" !in bookmarks
  {
    if starts == [] then map[]
    else
      var b := starts[|starts| - 1];
      var before := BookmarkMap(starts[..|starts| - 1]);
      if b.BookmarkStartNode? && b.name != "_GoBack" then before[b.name := b] else before
  }

  /** The keys are exactly the names of the starts other than `_GoBack`, and each key holds a start of its name. */
  lemma {:induction false} BookmarkMapKeys(starts: seq<Node>)
    requires AllBookmarkStarts(starts)
    ensures forall name :: name in BookmarkMap(starts) <==>
      name != "_GoBack" && exists i :: 0 <= i < |starts| && starts[i].name == name
    ensures forall name :: name in BookmarkMap(starts) ==>
      BookmarkMap(starts)[name] in starts && BookmarkMap(starts)[name].name == name
    decreases |starts|
  {
    if starts != [] {
      var init := starts[..|starts| - 1];
      BookmarkMapKeys(init);
      assert forall i :: 0 <= i < |init| ==> init[i] == starts[i];
      assert forall n :: n in init ==> n in starts;
    }
  }

  /** A start whose name no later start repeats is the one stored under that name. */
  lemma {:induction false} BookmarkMapLast(starts: seq<Node>, i: nat)
    requires AllBookmarkStarts(starts)
    requires i < |starts| && starts[i].name != "_GoBack"
    requires forall j :: i < j < |starts| ==> starts[j].name != starts[i].name
    ensures starts[i].name in BookmarkMap(starts) && BookmarkMap(starts)[starts[i].name] == starts[i]
    decreases |starts|
  {
    var n := |starts| - 1;
    if i < n {
      var init := starts[..n];
      assert init[i] == starts[i];
      BookmarkMapLast(init, i);
    }
  }

  /** Every start whose name no later start repeats is the one stored under that name. */
  lemma BookmarkMapLasts(starts: seq<Node>)
    requires AllBookmarkStarts(starts)
    ensures forall i :: (0 <= i < |starts| && starts[i].name != "_GoBack" &&
      (forall j :: i < j < |starts| ==> starts[j].name != starts[i].name)) ==>
      starts[i].name in BookmarkMap(starts) && BookmarkMap(starts)[starts[i].name] == starts[i]
  {
    forall i | 0 <= i < |starts| && starts[i].name != "_GoBack" &&
        (forall j :: i < j < |starts| ==> starts[j].name != starts[i].name)
      ensures starts[i].name in BookmarkMap(starts) && BookmarkMap(starts)[starts[i].name] == starts[i]
    {
      BookmarkMapLast(starts, i);
    }
  }

  /**
   * The table's key order, as a Ruby Hash iterates it: a name is appended when
   * it is first stored, and storing it again keeps its place.
   */
  function BookmarkOrder(starts: seq<Node>): (names: seq<string>)
    ensures "_GoBack" !in names
  {
    if starts == [] then []
    else
      var b := starts[|starts| - 1];
      var init := starts[..|starts| - 1];
      var before := BookmarkOrder(init);
      if b.BookmarkStartNode? && b.name != "_GoBack" && b.name !in BookmarkMap(init) then before + [b.name] else before
  }

  /** The key order lists every key of the table once, and nothing else. */
  lemma {:induction false} BookmarkOrderKeys(starts: seq<Node>)
    ensures forall name :: name in BookmarkOrder(starts) <==> name in BookmarkMap(starts)
    ensures forall i, j :: 0 <= i < j < |BookmarkOrder(starts)| ==> BookmarkOrder(starts)[i] != BookmarkOrder(starts)[j]
    decreases |starts|
  {
    if starts != [] {
      BookmarkOrderKeys(starts[..|starts| - 1]);
    }
  }

  /** A later bookmark start never moves a key already in the table: the order only grows at its end. */
  lemma {:induction false} BookmarkOrderStable(starts: seq<Node>, n: nat)
    requires n <= |starts|
    ensures BookmarkOrder(starts[..n]) <= BookmarkOrder(starts)
    decreases |starts| - n
  {
    if n < |starts| {
      var m := |starts| - 1;
      assert starts[..m][..n] == starts[..n];
      BookmarkOrderStable(starts[..m], n);
    } else {
      assert starts[..n] == starts;
    }
  }

  /** Half-points to points: Ruby's `Integer#/`, which rounds toward negative infinity. */
  function HalfPointsToPoints(halfPoints: int): (points: int)
    ensures 2 * points <= halfPoints < 2 * points + 2
  {
    halfPoints / 2
  }

  class Document {
    /** The opened archive; the code keeps it only in a local variable of `initialize`. */
    const archive: Archive
    const engine: Engine
    /** The `PartName`s of the manifest's `Override` elements. */
    const manifest: seq<string>
    /** The discovered paths; the code keeps them only in local variables of `initialize`. */
    const headerAndFooters: seq<string>
    const charts: seq<string>
    const diagrams: seq<string>
    /**
     * The loaded trees. Callers edit a part by mutating its tree in place;
     * here that is an assignment to the field.
     */
    var doc: Tree
    var styles: Tree
    var headerAndFootersXml: seq<Tree>
    var chartsXml: seq<Tree>
    var diagramsXml: seq<Tree>
    /** `@replace`, the edit buffer. */
    var replace: EditBuffer

    /** The discovered lists are those of the manifest. */
    ghost predicate Valid() {
      && headerAndFooters == Discovered(manifest, HeaderFooter)
      && charts == Discovered(manifest, Chart)
      && diagrams == Discovered(manifest, Diagram)
    }

    function State(): Parts
      reads this
    {
      Parts(manifest, doc, styles, headerAndFooters, headerAndFootersXml,
            charts, chartsXml, diagrams, diagramsXml)
    }

    constructor (a: Archive, e: Engine, p: Parts)
      requires p.headerAndFooters == Discovered(p.manifest, HeaderFooter)
      requires p.charts == Discovered(p.manifest, Chart)
      requires p.diagrams == Discovered(p.manifest, Diagram)
      ensures archive == a && engine == e && State() == p && replace == map[]
      ensures Valid()
    {
      archive, engine := a, e;
      manifest := p.manifest;
      headerAndFooters, charts, diagrams := p.headerAndFooters, p.charts, p.diagrams;
      doc, styles := p.doc, p.styles;
      headerAndFootersXml, chartsXml, diagramsXml := p.headerAndFootersXml, p.chartsXml, p.diagramsXml;
      replace := map[];
    }

    /** `Document.open` / `Document.new` without a block. */
    static method Open(a: Archive, e: Engine) returns (r: Result<Document, Error>)
      ensures r.Failure? <==> OpenParts(a, e).Failure?
      ensures r.Failure? ==> r.error == OpenParts(a, e).error
      ensures r.Success? ==>
        && fresh(r.value)
        && r.value.archive == a && r.value.engine == e
        && r.value.State() == OpenParts(a, e).value
        && r.value.replace == map[]
        && r.value.Valid()
    {
      var documentXml :- ReadRequired(a, MainPart);
      var contentTypesXml :- ReadRequired(a, ContentTypesPart);
      var manifest := PartNames(e.parse(contentTypesXml));
      var headerAndFooters := CollectParts(manifest, HeaderFooter);
      var headerAndFootersXml :- LoadParts(a, headerAndFooters, e, MainNamespaces);
      var doc :- LoadPart(e, MainPart, documentXml, MainNamespaces);
      var stylesXml :- ReadRequired(a, StylesPart);
      var styles := e.parse(stylesXml);
      var charts := CollectParts(manifest, Chart);
      var chartsXml :- LoadParts(a, charts, e, ChartNamespaces);
      var diagrams := CollectParts(manifest, Diagram);
      var diagramsXml :- LoadParts(a, diagrams, e, ChartNamespaces);
      var d := new Document(a, e, Parts(manifest, doc, styles, headerAndFooters, headerAndFootersXml,
                                        charts, chartsXml, diagrams, diagramsXml));
      return Success(d);
    }

    /** `paragraphs`: the `w:p` elements below the body, in document order. */
    function Paragraphs(): (ps: seq<Node>)
      reads this
      ensures forall p :: p in ps <==> p in NodesOf(doc) && p.ParagraphNode?
    {
      Select(NodesOf(doc), IsParagraph)
    }

    /** `tables`: the `w:tbl` elements below the body, in document order. */
    function Tables(): (ts: seq<Node>)
      reads this
      ensures forall t :: t in ts <==> t in NodesOf(doc) && t.TableNode?
    {
      Select(NodesOf(doc), IsTable)
    }

    /** The `w:bookmarkStart` elements, in document order. */
    function BookmarkStarts(): (bs: seq<Node>)
      reads this
      ensures forall b :: b in bs <==> b in NodesOf(doc) && b.BookmarkStartNode?
    {
      Select(NodesOf(doc), IsBookmarkStart)
    }

    /**
     * `bookmarks`: drop the `_GoBack` bookmarks, then store each remaining
     * one under its name, a later one replacing an earlier one of the same name.
     * The Hash is returned as its table and its key order.
     */
    method Bookmarks() returns (bookmarks: map<string, Node>, order: seq<string>)
      ensures bookmarks == BookmarkMap(BookmarkStarts()) && order == BookmarkOrder(BookmarkStarts())
      ensures "_GoBack" !in bookmarks
      ensures forall name :: name in bookmarks <==>
        name != "_GoBack" && exists i :: 0 <= i < |BookmarkStarts()| && BookmarkStarts()[i].name == name
      ensures forall name :: name in bookmarks ==> bookmarks[name] in BookmarkStarts() && bookmarks[name].name == name
      ensures forall i :: (0 <= i < |BookmarkStarts()| && BookmarkStarts()[i].name != "_GoBack" &&
        (forall j :: i < j < |BookmarkStarts()| ==> BookmarkStarts()[j].name != BookmarkStarts()[i].name)) ==>
        bookmarks[BookmarkStarts()[i].name] == BookmarkStarts()[i]
      ensures forall name :: name in order <==> name in bookmarks
      ensures forall i, j :: 0 <= i < j < |order| ==> order[i] != order[j]
    {
      var starts := BookmarkStarts();
      assert AllBookmarkStarts(starts) by {
        assert forall i :: 0 <= i < |starts| ==> starts[i] in starts;
      }
      bookmarks := map[];
      order := [];
      for i := 0 to |starts|
        invariant bookmarks == BookmarkMap(starts[..i])
        invariant order == BookmarkOrder(starts[..i])
      {
        var b := starts[i];
        assert starts[..i + 1][..i] == starts[..i];
        if b.name != "_GoBack" {
          if b.name !in bookmarks {
            order := order + [b.name];
          }
          bookmarks := bookmarks[b.name := b];
        }
      }
      assert starts[..|starts|] == starts;
      BookmarkMapKeys(starts);
      BookmarkMapLasts(starts);
      BookmarkOrderKeys(starts);
    }

    /** The `w:sz` elements of the default run properties, in document order. */
    function DefaultSizes(): (szs: seq<Node>)
      reads this
      ensures forall n :: n in szs <==> n in NodesOf(styles) && n.DefaultSizeNode?
    {
      Select(NodesOf(styles), IsDefaultSize)
    }

    /** `font_size`: nil without a default size, else the first one's value read as half-points. */
    function FontSize(): (size: Option<int>)
      reads this
      ensures size.None? <==> DefaultSizes() == []
      ensures size.Some? ==>
        var halfPoints := ToI(DefaultSizes()[0].val);
        2 * size.value <= halfPoints < 2 * size.value + 2
    {
      var sizes := DefaultSizes();
      if sizes == [] then None else Some(HalfPointsToPoints(ToI(sizes[0].val)))
    }

    function ParagraphTexts(): seq<string>
      reads this
    {
      var ps := Paragraphs();
      seq(|ps|, i requires 0 <= i < |ps| => ParagraphText(ps[i]))
    }

    function ParagraphHtmls(): seq<string>
      reads this
    {
      var ps := Paragraphs();
      seq(|ps|, i requires 0 <= i < |ps| => ParagraphHtml(ps[i]))
    }

    /** `to_s` (alias `text`): the paragraphs' text joined with line breaks. */
    function ToS(): (text: string)
      reads this
      ensures Paragraphs() == [] ==> text == ""
      ensures |Paragraphs()| >= 1 ==> |text| == TotalLength(ParagraphTexts()) + |Paragraphs()| - 1
    {
      var texts := ParagraphTexts();
      if texts == [] then "" else JoinLength(texts, "\n"); Join(texts, "\n")
    }

    /** `to_html`: the paragraphs' HTML joined with the two characters backslash and `n`. */
    function ToHtml(): (html: string)
      reads this
      ensures Paragraphs() == [] ==> html == ""
      ensures |Paragraphs()| >= 1 ==> |html| == TotalLength(ParagraphHtmls()) + 2 * (|Paragraphs()| - 1)
    {
      var htmls := ParagraphHtmls();
      if htmls == [] then "" else JoinLength(htmls, HtmlSeparator); Join(htmls, HtmlSeparator)
    }

    /** `replace_entry`: buffer bytes for a path; the last write for a path wins. */
    method ReplaceEntry(path: string, contents: Bytes)
      modifies this`replace
      ensures replace == old(replace)[path := contents]
    {
      replace := replace[path := contents];
    }

    /** The buffer after `update`, given the buffer before. */
    function Updated(m: EditBuffer): (r: EditBuffer)
      reads this
      ensures m.Keys <= r.Keys && MainPart in r
      ensures forall k :: k in r ==> k in m || k == MainPart || k in headerAndFooters || k in charts || k in diagrams
    {
      var withMain := m[MainPart := engine.serialize(doc)];
      var withHeaders := TrackedWrites(withMain, headerAndFooters, headerAndFootersXml, engine.serialize);
      var withCharts := TrackedWrites(withHeaders, charts, chartsXml, engine.serialize);
      TrackedWrites(withCharts, diagrams, diagramsXml, engine.serialize)
    }

    /** One `each_with_index` loop of `update`. */
    method WriteTracked(paths: seq<string>, trees: seq<Tree>)
      modifies this`replace
      ensures replace == TrackedWrites(old(replace), paths, trees, engine.serialize)
    {
      for i := 0 to |paths|
        invariant replace == TrackedWrites(old(replace), paths[..i], trees, engine.serialize)
      {
        assert paths[..i + 1][..i] == paths[..i];
        if i < |trees| {
          ReplaceEntry(paths[i], engine.serialize(trees[i]));
        }
      }
      assert paths[..|paths|] == paths;
    }

    /**
     * `update`, with the discovered lists it was evidently meant to iterate:
     * the main part, then every header and footer, chart and diagram path
     * paired by index with its loaded tree.
     */
    method Update()
      modifies this`replace
      ensures replace == Updated(old(replace))
    {
      ReplaceEntry(MainPart, engine.serialize(doc));
      WriteTracked(headerAndFooters, headerAndFootersXml);
      WriteTracked(charts, chartsXml);
      WriteTracked(diagrams, diagramsXml);
    }

    /** `save`: update the buffer, then write every original entry, substituted, to the destination. */
    method Save() returns (written: seq<Entry>)
      modifies this`replace
      ensures replace == Updated(old(replace))
      ensures written == Substitute(archive, replace)
    {
      Update();
      written := StreamEntries(archive, replace);
    }

    /** `save_and_return`: the same archive, written to an in-memory buffer that is returned. */
    method SaveAndReturn() returns (buffer: seq<Entry>)
      modifies this`replace
      ensures replace == Updated(old(replace))
      ensures buffer == Substitute(archive, replace)
    {
      Update();
      buffer := StreamEntries(archive, replace);
    }

    /**
     * `save` and `save_and_return` as the code stands: `update` buffers the
     * main part and then calls `each_with_index` on `@header_and_footers`,
     * which nothing assigns, so the call raises before anything is written.
     */
    method SaveAsWritten() returns (r: Result<seq<Entry>, Error>)
      modifies this`replace
      ensures replace == old(replace)[MainPart := engine.serialize(doc)]
      ensures r == Failure(NilReceiver("@header_and_footers"))
    {
      ReplaceEntry(MainPart, engine.serialize(doc));
      r := Failure(NilReceiver("@header_and_footers"));
    }
  }

  /** No tracked role ever discovers the main part's path: it names neither a header, a footer, a chart nor a diagram. */
  lemma MainPartMatchesNoRole(c: char)
    ensures !Matches(HeaderFooter, [c] + MainPart)
    ensures !Matches(Chart, [c] + MainPart)
    ensures !Matches(Diagram, [c] + MainPart)
  {
    AbsentLetterExcludes(MainPart, "header", 2);
    MainPartNoFooter(c);
    AbsentLetterExcludes(MainPart, "charts/ch", 1);
    AbsentLetterExcludes(MainPart, "diagrams", 2);
  }

  /** Every letter of "footer" after its first occurs in the main part's path, but not in that order. */
  lemma MainPartNoFooter(c: char)
    ensures !Contains([c] + MainPart, "footer")
  {
    var s := [c] + MainPart;
    assert s[1..] == MainPart;
    ContainsBeyondFirst(s, "footer");
    assert "footer"[0] == 'f' && 'f' !in MainPart;
    assert s[1] == MainPart[0] == 'w' && "footer"[1] == 'o';
    assert s[1..6][0] == 'w';
  }

  /** After `update`, the main part always holds the serialised main tree, whatever was buffered for it before. */
  lemma UpdateWritesMainPart(d: Document, m: EditBuffer)
    requires d.Valid()
    ensures MainPart in d.Updated(m) && d.Updated(m)[MainPart] == d.engine.serialize(d.doc)
  {
    forall c: char ensures !Matches(HeaderFooter, [c] + MainPart) && !Matches(Chart, [c] + MainPart) && !Matches(Diagram, [c] + MainPart) {
      MainPartMatchesNoRole(c);
    }
    NeverDiscovered(d.manifest, HeaderFooter, MainPart);
    NeverDiscovered(d.manifest, Chart, MainPart);
    NeverDiscovered(d.manifest, Diagram, MainPart);
    var ser := d.engine.serialize;
    var withMain := m[MainPart := ser(d.doc)];
    TrackedWritesElsewhere(withMain, d.headerAndFooters, d.headerAndFootersXml, ser, MainPart);
    var withHeaders := TrackedWrites(withMain, d.headerAndFooters, d.headerAndFootersXml, ser);
    TrackedWritesElsewhere(withHeaders, d.charts, d.chartsXml, ser, MainPart);
    var withCharts := TrackedWrites(withHeaders, d.charts, d.chartsXml, ser);
    TrackedWritesElsewhere(withCharts, d.diagrams, d.diagramsXml, ser, MainPart);
  }

  /**
   * What a save writes: the original entries in their original order; the
   * main part carries the serialised main tree; an entry that is neither the
   * main part nor a discovered path keeps the buffered bytes if any were
   * buffered and its original bytes otherwise.
   */
  lemma SaveOutput(d: Document, m: EditBuffer)
    requires d.Valid()
    ensures Names(Substitute(d.archive, d.Updated(m))) == Names(d.archive)
    ensures forall i :: 0 <= i < |d.archive| && d.archive[i].name == MainPart ==>
      Substitute(d.archive, d.Updated(m))[i].data == d.engine.serialize(d.doc)
    ensures forall i :: 0 <= i < |d.archive| ==>
      var name := d.archive[i].name;
      name != MainPart && name !in d.headerAndFooters && name !in d.charts && name !in d.diagrams ==>
      Substitute(d.archive, d.Updated(m))[i].data == if name in m then m[name] else d.archive[i].data
  {
    UpdateWritesMainPart(d, m);
    SubstituteSpec(d.archive, d.Updated(m));
    var ser := d.engine.serialize;
    forall i | 0 <= i < |d.archive|
      ensures var name := d.archive[i].name;
        name != MainPart && name !in d.headerAndFooters && name !in d.charts && name !in d.diagrams ==>
        Substitute(d.archive, d.Updated(m))[i].data == if name in m then m[name] else d.archive[i].data
    {
      var name := d.archive[i].name;
      if name != MainPart && name !in d.headerAndFooters && name !in d.charts && name !in d.diagrams {
        var withMain := m[MainPart := ser(d.doc)];
        TrackedWritesElsewhere(withMain, d.headerAndFooters, d.headerAndFootersXml, ser, name);
        var withHeaders := TrackedWrites(withMain, d.headerAndFooters, d.headerAndFootersXml, ser);
        TrackedWritesElsewhere(withHeaders, d.charts, d.chartsXml, ser, name);
        var withCharts := TrackedWrites(withHeaders, d.charts, d.chartsXml, ser);
        TrackedWritesElsewhere(withCharts, d.diagrams, d.diagramsXml, ser, name);
      }
    }
  }

  lemma ToHtmlJoins(d: Document)
    ensures d.ToHtml() == Join(d.ParagraphHtmls(), HtmlSeparator)
  {
  }

  lemma ToSJoins(d: Document)
    ensures d.ToS() == Join(d.ParagraphTexts(), "\n")
  {
  }

  /** Joined with `HtmlSeparator`, every piece but the last is followed by backslash and `n`. */
  lemma JoinedHtmlSeparators(htmls: seq<string>, joined: string)
    requires joined == Join(htmls, HtmlSeparator)
    ensures forall i :: 0 <= i < |htmls| - 1 ==>
      PieceEnd(htmls, HtmlSeparator, i) + 2 <= |joined| &&
      joined[PieceEnd(htmls, HtmlSeparator, i)] == '\\' && joined[PieceEnd(htmls, HtmlSeparator, i) + 1] == 'n'
  {
    forall i | 0 <= i < |htmls| - 1
      ensures PieceEnd(htmls, HtmlSeparator, i) + 2 <= |joined|
      ensures joined[PieceEnd(htmls, HtmlSeparator, i)] == '\\' && joined[PieceEnd(htmls, HtmlSeparator, i) + 1] == 'n'
    {
      SeparatorChars(htmls, HtmlSeparator, i);
      var end := PieceEnd(htmls, HtmlSeparator, i);
      assert joined[end + 0] == HtmlSeparator[0] && joined[end + 1] == HtmlSeparator[1];
    }
  }

  /** `to_html` puts the two characters backslash and `n` between neighbouring paragraphs, never a line break. */
  lemma ToHtmlSeparators(d: Document)
    ensures forall i :: 0 <= i < |d.ParagraphHtmls()| - 1 ==>
      PieceEnd(d.ParagraphHtmls(), HtmlSeparator, i) + 2 <= |d.ToHtml()| &&
      d.ToHtml()[PieceEnd(d.ParagraphHtmls(), HtmlSeparator, i)] == '\\' &&
      d.ToHtml()[PieceEnd(d.ParagraphHtmls(), HtmlSeparator, i) + 1] == 'n'
  {
    ToHtmlJoins(d);
    JoinedHtmlSeparators(d.ParagraphHtmls(), d.ToHtml());
  }

  /** Joined with a line break, every piece but the last is followed by one. */
  lemma JoinedLineBreaks(texts: seq<string>, joined: string)
    requires joined == Join(texts, "\n")
    ensures forall i :: 0 <= i < |texts| - 1 ==>
      PieceEnd(texts, "\n", i) + 1 <= |joined| && joined[PieceEnd(texts, "\n", i)] == '\n'
  {
    forall i | 0 <= i < |texts| - 1
      ensures PieceEnd(texts, "\n", i) + 1 <= |joined| && joined[PieceEnd(texts, "\n", i)] == '\n'
    {
      SeparatorChars(texts, "\n", i);
      var end := PieceEnd(texts, "\n", i);
      assert joined[end + 0] == "\n"[0];
    }
  }

  /** `to_s` puts one line break between neighbouring paragraphs. */
  lemma ToSSeparators(d: Document)
    ensures forall i :: 0 <= i < |d.ParagraphTexts()| - 1 ==>
      PieceEnd(d.ParagraphTexts(), "\n", i) + 1 <= |d.ToS()| && d.ToS()[PieceEnd(d.ParagraphTexts(), "\n", i)] == '\n'
  {
    ToSJoins(d);
    JoinedLineBreaks(d.ParagraphTexts(), d.ToS());
  }

  /**
   * What a successful open holds: each discovered list is the manifest's
   * paths for its role; each loaded list has one tree per discovered path
   * that the archive holds, so its length is the discovered count minus the
   * missing count; and styles are parsed with no attribute assigned.
   */
  lemma OpenedDocument(a: Archive, e: Engine)
    requires OpenParts(a, e).Success?
    ensures var p := OpenParts(a, e).value;
      && p.headerAndFooters == Discovered(p.manifest, HeaderFooter)
      && p.charts == Discovered(p.manifest, Chart)
      && p.diagrams == Discovered(p.manifest, Diagram)
      && |p.headerAndFootersXml| == |p.headerAndFooters| - |Missing(a, p.headerAndFooters)|
      && |p.chartsXml| == |p.charts| - |Missing(a, p.charts)|
      && |p.diagramsXml| == |p.diagrams| - |Missing(a, p.diagrams)|
      && Loaded(a, p.headerAndFooters, e, MainNamespaces) == Success(p.headerAndFootersXml)
      && Loaded(a, p.charts, e, ChartNamespaces) == Success(p.chartsXml)
      && Loaded(a, p.diagrams, e, ChartNamespaces) == Success(p.diagramsXml)
      && Read(a, StylesPart).Some? && p.styles == e.parse(Read(a, StylesPart).value)
  {
    var documentXml := ReadRequired(a, MainPart).value;
    var contentTypesXml := ReadRequired(a, ContentTypesPart).value;
    var manifest := PartNames(e.parse(contentTypesXml));
    var headerAndFooters := Discovered(manifest, HeaderFooter);
    var headerAndFootersXml := Loaded(a, headerAndFooters, e, MainNamespaces);
    var doc := LoadPart(e, MainPart, documentXml, MainNamespaces);
    var stylesXml := ReadRequired(a, StylesPart).value;
    var charts := Discovered(manifest, Chart);
    var chartsXml := Loaded(a, charts, e, ChartNamespaces);
    var diagrams := Discovered(manifest, Diagram);
    var diagramsXml := Loaded(a, diagrams, e, ChartNamespaces);
    assert headerAndFootersXml.Success? && doc.Success? && chartsXml.Success? && diagramsXml.Success?;
    assert OpenParts(a, e).value == Parts(manifest, doc.value, e.parse(stylesXml), headerAndFooters, headerAndFootersXml.value,
                                          charts, chartsXml.value, diagrams, diagramsXml.value);
    LoadedShape(a, headerAndFooters, e, MainNamespaces);
    LoadedShape(a, charts, e, ChartNamespaces);
    LoadedShape(a, diagrams, e, ChartNamespaces);
  }

  /**
   * With a faithful serialise-and-parse pass, every loaded header, footer,
   * chart and diagram is the root of the archive's part, rooted, with its
   * role's namespace set over its own attributes: the base set for headers
   * and footers, the base set plus the chart prefixes for charts and diagrams.
   */
  lemma OpenedLoadedRoots(a: Archive, e: Engine)
    requires RoundTrips(e)
    requires OpenParts(a, e).Success?
    ensures var p := OpenParts(a, e).value;
      && |p.headerAndFootersXml| == |Present(a, p.headerAndFooters)|
      && (forall i :: 0 <= i < |Present(a, p.headerAndFooters)| ==>
            var original := e.parse(Read(a, Present(a, p.headerAndFooters)[i]).value);
            original.Rooted? && p.headerAndFootersXml[i] == Rooted(Normalize(original.attrs, MainNamespaces), original.nodes))
    ensures var p := OpenParts(a, e).value;
      && |p.chartsXml| == |Present(a, p.charts)|
      && (forall i :: 0 <= i < |Present(a, p.charts)| ==>
            var original := e.parse(Read(a, Present(a, p.charts)[i]).value);
            original.Rooted? && p.chartsXml[i] == Rooted(Normalize(original.attrs, ChartNamespaces), original.nodes))
    ensures var p := OpenParts(a, e).value;
      && |p.diagramsXml| == |Present(a, p.diagrams)|
      && (forall i :: 0 <= i < |Present(a, p.diagrams)| ==>
            var original := e.parse(Read(a, Present(a, p.diagrams)[i]).value);
            original.Rooted? && p.diagramsXml[i] == Rooted(Normalize(original.attrs, ChartNamespaces), original.nodes))
  {
    OpenedDocument(a, e);
    var p := OpenParts(a, e).value;
    assert "xmlns:w" in MainNamespaces && "xmlns:w" in ChartNamespaces;
    LoadedRootsNormalized(a, p.headerAndFooters, e, MainNamespaces);
    LoadedRootsNormalized(a, p.charts, e, ChartNamespaces);
    LoadedRootsNormalized(a, p.diagrams, e, ChartNamespaces);
  }

  /** After opening, every chart and diagram root carries `xmlns:c` and `xmlns:a` with their fixed values. */
  lemma OpenedChartPrefixes(a: Archive, e: Engine)
    requires RoundTrips(e)
    requires OpenParts(a, e).Success?
    ensures var p := OpenParts(a, e).value;
      forall i :: 0 <= i < |p.chartsXml| ==>
        p.chartsXml[i].Rooted? &&
        (forall k :: k in ChartPrefixes ==> k in p.chartsXml[i].attrs && p.chartsXml[i].attrs[k] == ChartPrefixes[k])
    ensures var p := OpenParts(a, e).value;
      forall i :: 0 <= i < |p.diagramsXml| ==>
        p.diagramsXml[i].Rooted? &&
        (forall k :: k in ChartPrefixes ==> k in p.diagramsXml[i].attrs && p.diagramsXml[i].attrs[k] == ChartPrefixes[k])
  {
    OpenedLoadedRoots(a, e);
    var p := OpenParts(a, e).value;
    forall i | 0 <= i < |p.chartsXml|
      ensures p.chartsXml[i].Rooted? &&
        (forall k :: k in ChartPrefixes ==> k in p.chartsXml[i].attrs && p.chartsXml[i].attrs[k] == ChartPrefixes[k])
    {
      ChartSetCarriesPrefixes(e.parse(Read(a, Present(a, p.charts)[i]).value).attrs);
    }
    forall i | 0 <= i < |p.diagramsXml|
      ensures p.diagramsXml[i].Rooted? &&
        (forall k :: k in ChartPrefixes ==> k in p.diagramsXml[i].attrs && p.diagramsXml[i].attrs[k] == ChartPrefixes[k])
    {
      ChartSetCarriesPrefixes(e.parse(Read(a, Present(a, p.diagrams)[i]).value).attrs);
    }
  }

  /**
   * After opening, a header or footer root has `xmlns:c` and `xmlns:a`
   * exactly when, and as, the archive's part had them.
   */
  lemma OpenedHeaderPrefixes(a: Archive, e: Engine)
    requires RoundTrips(e)
    requires OpenParts(a, e).Success?
    ensures var p := OpenParts(a, e).value;
      forall i :: 0 <= i < |Present(a, p.headerAndFooters)| ==>
        var original := e.parse(Read(a, Present(a, p.headerAndFooters)[i]).value);
        i < |p.headerAndFootersXml| && original.Rooted? && p.headerAndFootersXml[i].Rooted? &&
        forall k :: k in ChartPrefixes ==>
          (k in p.headerAndFootersXml[i].attrs <==> k in original.attrs) &&
          (k in original.attrs ==> p.headerAndFootersXml[i].attrs[k] == original.attrs[k])
  {
    OpenedLoadedRoots(a, e);
    var p := OpenParts(a, e).value;
    forall i | 0 <= i < |Present(a, p.headerAndFooters)|
      ensures var original := e.parse(Read(a, Present(a, p.headerAndFooters)[i]).value);
        i < |p.headerAndFootersXml| && original.Rooted? && p.headerAndFootersXml[i].Rooted? &&
        forall k :: k in ChartPrefixes ==>
          (k in p.headerAndFootersXml[i].attrs <==> k in original.attrs) &&
          (k in original.attrs ==> p.headerAndFootersXml[i].attrs[k] == original.attrs[k])
    {
      MainKeepsChartPrefixes(e.parse(Read(a, Present(a, p.headerAndFooters)[i]).value).attrs);
    }
  }

  /**
   * With a faithful serialise-and-parse pass, the opened main part's root
   * carries the base namespace set over its own attributes.
   */
  lemma OpenedMainRoot(a: Archive, e: Engine)
    requires RoundTrips(e)
    requires OpenParts(a, e).Success?
    ensures var original := e.parse(Read(a, MainPart).value);
      && original.Rooted?
      && OpenParts(a, e).value.doc == Rooted(Normalize(original.attrs, MainNamespaces), original.nodes)
  {
    OpenedDocLoaded(a, e);
    var documentXml := Read(a, MainPart).value;
    assert "xmlns:w" in MainNamespaces;
    var normalized := NormalizeRoot(e.parse(documentXml), MainNamespaces);
    assert Reparse(e, normalized) == normalized;
  }

  /** The opened `doc` is the main part, loaded with the base namespace set. */
  lemma OpenedDocLoaded(a: Archive, e: Engine)
    requires OpenParts(a, e).Success?
    ensures Read(a, MainPart).Some?
    ensures var loaded := LoadPart(e, MainPart, Read(a, MainPart).value, MainNamespaces);
      loaded.Success? && OpenParts(a, e).value.doc == loaded.value
  {
    var documentXml := ReadRequired(a, MainPart).value;
    var contentTypesXml := ReadRequired(a, ContentTypesPart).value;
    var manifest := PartNames(e.parse(contentTypesXml));
    var headerAndFooters := Discovered(manifest, HeaderFooter);
    var headerAndFootersXml := Loaded(a, headerAndFooters, e, MainNamespaces);
    var doc := LoadPart(e, MainPart, documentXml, MainNamespaces);
    var stylesXml := ReadRequired(a, StylesPart).value;
    var charts := Discovered(manifest, Chart);
    var chartsXml := Loaded(a, charts, e, ChartNamespaces);
    var diagrams := Discovered(manifest, Diagram);
    var diagramsXml := Loaded(a, diagrams, e, ChartNamespaces);
    assert headerAndFootersXml.Success? && doc.Success? && chartsXml.Success? && diagramsXml.Success?;
    assert OpenParts(a, e).value == Parts(manifest, doc.value, e.parse(stylesXml), headerAndFooters, headerAndFootersXml.value,
                                          charts, chartsXml.value, diagrams, diagramsXml.value);
  }

  /** The font size examples: 24 half-points are 12 points, and so are 25. */
  lemma HalfPointExamples()
    ensures HalfPointsToPoints(ToI("24")) == 12
    ensures HalfPointsToPoints(ToI("25")) == 12
  {
    ToIOf24();
    ToIOf25();
    assert HalfPointsToPoints(24) == 12 && HalfPointsToPoints(25) == 12;
  }

  lemma ToIOf24()
    ensures ToI("24") == 24
  {
    LeadingDigitsOfDigits("24");
    ToIUnsigned("24");
  }

  lemma ToIOf25()
    ensures ToI("25") == 25
  {
    LeadingDigitsOfDigits("25");
    ToIUnsigned("25");
  }
}

=== FILE: namespaces.dfy ===
/**
 * Root namespace normalisation. Each loaded part's root element has a fixed
 * set of attributes assigned, one after another; the keys of one set are
 * distinct, so the assignments amount to overriding the root's attribute map
 * with a constant table.
 */
module Namespaces {
  import opened Xml

  /** The fourteen assignments made to the main document and to headers and footers. */
  const MainNamespaces: Attrs := map[
    "xmlns:wp14" := "http://schemas.microsoft.com/office/word/2010/wordprocessingDrawing",
    "xmlns:wp" := "http://schemas.openxmlformats.org/drawingml/2006/wordprocessingDrawing",
    "xmlns:w10" := "urn:schemas-microsoft-com:office:word",
    "xmlns:w" := "http://schemas.openxmlformats.org/wordprocessingml/2006/main",
    "xmlns:w14" := "http://schemas.microsoft.com/office/word/2010/wordml",
    "xmlns:w15" := "http://schemas.microsoft.com/office/word/2012/wordml",
    "xmlns:w16cid" := "http://schemas.microsoft.com/office/word/2016/wordml/cid",
    "xmlns:w16se" := "http://schemas.microsoft.com/office/word/2015/wordml/symex",
    "mc:Ignorable" := "w14 w15 w16se w16cid wp14",
    "xmlns:mc" := "http://schemas.openxmlformats.org/markup-compatibility/2006",
    "xmlns:wps" := "http://schemas.microsoft.com/office/word/2010/wordprocessingShape",
    "xmlns:r" := "http://schemas.openxmlformats.org/officeDocument/2006/relationships",
    "xmlns:m" := "http://schemas.openxmlformats.org/officeDocument/2006/math",
    "xmlns:v" := "urn:schemas-microsoft-com:vml"]

  /** The two prefixes added for charts and diagrams of a word-processing package. */
  const ChartPrefixes: Attrs := map[
    "xmlns:c" := "urn:schemas-microsoft-com:c",
    "xmlns:a" := "urn:schemas-microsoft-com:a"]

  /** Document charts and diagrams: the main set followed by the chart prefixes. */
  const ChartNamespaces: Attrs := MainNamespaces + ChartPrefixes

  /** Spreadsheet charts, drawings and comments: three assignments only. */
  const SheetPartNamespaces: Attrs := map[
    "xmlns:v" := "urn:schemas-microsoft-com:vml",
    "xmlns:c" := "urn:schemas-microsoft-com:c",
    "xmlns:a" := "urn:schemas-microsoft-com:a"]

  /** Parts whose root the code leaves alone (styles, worksheets, workbook, shared strings). */
  const NoNamespaces: Attrs := map[]

  /** Assigning every key of `ns` on a root whose attributes are `attrs`. */
  function Normalize(attrs: Attrs, ns: Attrs): (r: Attrs)
    ensures forall k :: k in ns ==> k in r && r[k] == ns[k]
    ensures forall k :: k !in ns ==> (k in r <==> k in attrs)
    ensures forall k :: k !in ns && k in attrs ==> r[k] == attrs[k]
  {
    attrs + ns
  }

  /** Normalisation of a parsed part; the elements below the root are never touched. */
  function NormalizeRoot(t: Tree, ns: Attrs): (r: Tree)
    ensures r.Rooted? <==> t.Rooted?
    ensures r.Rooted? ==> r.attrs == Normalize(t.attrs, ns) && r.nodes == t.nodes
  {
    match t
    case NoRoot => NoRoot
    case Rooted(attrs, nodes) => Rooted(Normalize(attrs, ns), nodes)
  }

  /** Normalising twice is normalising once. */
  lemma NormalizeIdempotent(attrs: Attrs, ns: Attrs)
    ensures Normalize(Normalize(attrs, ns), ns) == Normalize(attrs, ns)
  {
  }

  /** The fixed value of `mc:Ignorable`, and the keys the main set does not assign. */
  lemma MainNamespacesTable()
    ensures MainNamespaces["mc:Ignorable"] == "w14 w15 w16se w16cid wp14"
    ensures "xmlns:c" !in MainNamespaces && "xmlns:a" !in MainNamespaces
  {
  }

  /** The chart set is the main set plus exactly `xmlns:c` and `xmlns:a`, agreeing with it elsewhere. */
  lemma ChartNamespacesExtendMain()
    ensures ChartNamespaces.Keys == MainNamespaces.Keys + {"xmlns:c", "xmlns:a"}
    ensures forall k :: k in MainNamespaces ==> ChartNamespaces[k] == MainNamespaces[k]
  {
    MainNamespacesTable();
    assert ChartPrefixes.Keys == {"xmlns:c", "xmlns:a"};
    forall k | k in MainNamespaces ensures ChartNamespaces[k] == MainNamespaces[k] {
      assert k !in ChartPrefixes;
    }
  }

  /** Whatever a root had, the chart set leaves `xmlns:c` and `xmlns:a` at their fixed values. */
  lemma ChartSetCarriesPrefixes(attrs: Attrs)
    ensures forall k :: k in ChartPrefixes ==>
      k in Normalize(attrs, ChartNamespaces) && Normalize(attrs, ChartNamespaces)[k] == ChartPrefixes[k]
  {
    ChartNamespacesExtendMain();
    assert forall k :: k in ChartPrefixes ==> k in ChartNamespaces && ChartNamespaces[k] == ChartPrefixes[k];
  }

  /** The main set never assigns the chart prefixes: they keep whatever the part declared. */
  lemma MainKeepsChartPrefixes(attrs: Attrs)
    ensures forall k :: k in ChartPrefixes ==>
      (k in Normalize(attrs, MainNamespaces) <==> k in attrs) &&
      (k in attrs ==> Normalize(attrs, MainNamespaces)[k] == attrs[k])
  {
    MainNamespacesTable();
  }

  /** Parts whose roots receive no assignment keep their roots as parsed. */
  lemma NormalizeNothing(t: Tree)
    ensures NormalizeRoot(t, NoNamespaces) == t
  {
    if t.Rooted? {
      assert Normalize(t.attrs, NoNamespaces) == t.attrs;
    }
  }
}

=== FILE: package_writer.dfy ===
/**
 * The edit buffer (`@replace`, a path-to-bytes map where the last write for a
 * path wins) and the writer that streams the original archive, entry by entry
 * in its original order, substituting buffered bytes where a path has them.
 */
module PackageWriter {
  import opened Zip
  import opened Xml

  type EditBuffer = map<string, Bytes>

  /**
   * One `each_with_index` loop of `update`: declared path `i` receives the
   * serialisation of loaded tree `i`, for every `i` that has a loaded tree.
   */
  function TrackedWrites(m: EditBuffer, paths: seq<string>, trees: seq<Tree>, serialize: Tree -> Bytes): (r: EditBuffer)
    ensures m.Keys <= r.Keys
    ensures forall k :: k in r ==> k in m || k in paths
  {
    if paths == [] then m
    else
      var i := |paths| - 1;
      var before := TrackedWrites(m, paths[..i], trees, serialize);
      if i < |trees| then before[paths[i] := serialize(trees[i])] else before
  }

  /** A key that is none of the written paths keeps its buffered bytes, or stays absent. */
  lemma {:induction false} TrackedWritesElsewhere(m: EditBuffer, paths: seq<string>, trees: seq<Tree>, serialize: Tree -> Bytes, k: string)
    requires forall i :: 0 <= i < |paths| && i < |trees| ==> paths[i] != k
    ensures var r := TrackedWrites(m, paths, trees, serialize);
      (k in r <==> k in m) && (k in m ==> r[k] == m[k])
    decreases |paths|
  {
    if paths != [] {
      TrackedWritesElsewhere(m, paths[..|paths| - 1], trees, serialize, k);
    }
  }

  /** Last write wins: declared path `j`, written by no later index, holds the serialisation of tree `j`. */
  lemma {:induction false} TrackedWritesLast(m: EditBuffer, paths: seq<string>, trees: seq<Tree>, serialize: Tree -> Bytes, j: nat)
    requires j < |paths| && j < |trees|
    requires forall i :: j < i < |paths| && i < |trees| ==> paths[i] != paths[j]
    ensures var r := TrackedWrites(m, paths, trees, serialize);
      paths[j] in r && r[paths[j]] == serialize(trees[j])
    decreases |paths|
  {
    var n := |paths| - 1;
    var before := TrackedWrites(m, paths[..n], trees, serialize);
    if j < n {
      var init := paths[..n];
      assert init[j] == paths[j];
      TrackedWritesLast(m, init, trees, serialize, j);
      if n < |trees| {
        assert paths[n] != paths[j];
        assert TrackedWrites(m, paths, trees, serialize) == before[paths[n] := serialize(trees[n])];
      } else {
        assert TrackedWrites(m, paths, trees, serialize) == before;
      }
    } else {
      assert TrackedWrites(m, paths, trees, serialize) == before[paths[n] := serialize(trees[n])];
    }
  }

  ghost predicate NoDuplicates(paths: seq<string>) {
    forall i, j :: 0 <= i < j < |paths| ==> paths[i] != paths[j]
  }

  /**
   * The index pairing of `update` over distinct declared paths: path `i` gets
   * tree `i` when `i < |trees|`; the remaining declared paths (as many as parts
   * were missing from the archive) are not written and keep what the buffer held.
   */
  lemma TrackedWritesPairing(m: EditBuffer, paths: seq<string>, trees: seq<Tree>, serialize: Tree -> Bytes)
    requires NoDuplicates(paths)
    ensures var r := TrackedWrites(m, paths, trees, serialize);
      forall i :: 0 <= i < |paths| ==>
        if i < |trees| then paths[i] in r && r[paths[i]] == serialize(trees[i])
        else (paths[i] in r <==> paths[i] in m) && (paths[i] in m ==> r[paths[i]] == m[paths[i]])
  {
    forall i | 0 <= i < |paths|
      ensures var r := TrackedWrites(m, paths, trees, serialize);
        if i < |trees| then paths[i] in r && r[paths[i]] == serialize(trees[i])
        else (paths[i] in r <==> paths[i] in m) && (paths[i] in m ==> r[paths[i]] == m[paths[i]])
    {
      if i < |trees| {
        TrackedWritesLast(m, paths, trees, serialize, i);
      } else {
        TrackedWritesElsewhere(m, paths, trees, serialize, paths[i]);
      }
    }
  }

  /**
   * The pairing shifts when a declared part is missing: with the first of two
   * declared worksheets absent, the second one's tree is written under the
   * first one's path and the second path is not written at all.
   */
  lemma MissingPartShiftsPairing(serialize: Tree -> Bytes, second: Tree)
    ensures var r := TrackedWrites(map[], ["xl/worksheets/sheet1.xml", "xl/worksheets/sheet2.xml"], [second], serialize);
      r == map["xl/worksheets/sheet1.xml" := serialize(second)]
  {
    var paths := ["xl/worksheets/sheet1.xml", "xl/worksheets/sheet2.xml"];
    var first := paths[..1];
    assert first[..0] == [];
    calc {
      TrackedWrites(map[], paths, [second], serialize);
      TrackedWrites(map[], first, [second], serialize);
      TrackedWrites(map[], first[..0], [second], serialize)[paths[0] := serialize(second)];
    }
  }

  /** The bytes the writer emits for one original entry. */
  function Substituted(entry: Entry, replace: EditBuffer): Entry {
    Entry(entry.name, if entry.name in replace then replace[entry.name] else entry.data)
  }

  /** The archive `save` and `save_and_return` write: every original entry, in order, substituted. */
  function Substitute(a: Archive, replace: EditBuffer): (written: seq<Entry>)
    ensures |written| == |a|
    ensures forall i :: 0 <= i < |a| ==> written[i].name == a[i].name
    ensures forall i :: 0 <= i < |a| && a[i].name !in replace ==> written[i] == a[i]
  {
    seq(|a|, i requires 0 <= i < |a| => Substituted(a[i], replace))
  }

  /** The streaming loop (`zip.each` writing to the output stream). */
  method StreamEntries(a: Archive, replace: EditBuffer) returns (written: seq<Entry>)
    ensures Names(written) == Names(a)
    ensures forall i :: 0 <= i < |a| ==>
      written[i].data == (if a[i].name in replace then replace[a[i].name] else a[i].data)
    ensures written == Substitute(a, replace)
  {
    written := [];
    for i := 0 to |a|
      invariant |written| == i
      invariant forall j :: 0 <= j < i ==> written[j] == Substituted(a[j], replace)
    {
      var entry := a[i];
      if entry.name in replace {
        written := written + [Entry(entry.name, replace[entry.name])];
      } else {
        written := written + [Entry(entry.name, entry.data)];
      }
    }
  }

  /**
   * What the written archive is: the original names in the original order,
   * buffered bytes where the buffer has the name and the original bytes
   * otherwise, so a buffered path naming no entry never appears.
   */
  lemma SubstituteSpec(a: Archive, replace: EditBuffer)
    ensures Names(Substitute(a, replace)) == Names(a)
    ensures forall i :: 0 <= i < |a| && a[i].name in replace ==> Substitute(a, replace)[i].data == replace[a[i].name]
    ensures forall i :: 0 <= i < |a| && a[i].name !in replace ==> Substitute(a, replace)[i] == a[i]
    ensures forall k :: k in replace && k !in Names(a) ==> k !in Names(Substitute(a, replace))
  {
  }

  /** Round trip: a buffer naming no entry of the archive writes the archive back unchanged. */
  lemma SubstituteUntouched(a: Archive, replace: EditBuffer)
    requires forall i :: 0 <= i < |a| ==> a[i].name !in replace
    ensures Substitute(a, replace) == a
  {
  }
}

=== FILE: part_loader.dfy ===
/**
 * Loading the parts of one role: every discovered path that the archive
 * holds is read, parsed, has its root normalised and goes through one
 * serialise-and-parse pass; paths the archive lacks are skipped without error.
 */
module PartLoader {
  import opened Wrappers
  import opened Zip
  import opened Xml
  import opened Discovery
  import opened Namespaces

  /** The exceptions the package classes raise. */
  datatype Error =
    /** `zip.read` of a path the archive does not hold */
    | EntryNotFound(name: string)
    /** a root attribute assigned on a part that parsed without a root element */
    | RootMissing(path: string)
    /** a method called on an instance variable that was never assigned */
    | NilReceiver(variable: string)

  /** `zip.read(name)` for a part the code requires. */
  function ReadRequired(a: Archive, name: string): (r: Result<Bytes, Error>)
    ensures r.Failure? <==> name !in Names(a)
    ensures r.Failure? ==> r.error == EntryNotFound(name)
    ensures forall i :: 0 <= i < |a| && a[i].name == name ==> r == Success(a[i].data)
  {
    match Read(a, name)
    case None => Failure(EntryNotFound(name))
    case Some(bytes) => Success(bytes)
  }

  /**
   * Parse one part, assign the namespace set `ns` on its root and reparse.
   * Without a root the first assignment raises; with no assignments the root
   * is never touched.
   */
  function LoadPart(e: Engine, path: string, bytes: Bytes, ns: Attrs): (r: Result<Tree, Error>)
    ensures r.Failure? <==> e.parse(bytes).NoRoot? && ns != map[]
    ensures r.Failure? ==> r.error == RootMissing(path)
    ensures r.Success? ==> r.value == Reparse(e, NormalizeRoot(e.parse(bytes), ns))
  {
    var parsed := e.parse(bytes);
    if parsed.NoRoot? && ns != map[] then Failure(RootMissing(path))
    else Success(Reparse(e, NormalizeRoot(parsed, ns)))
  }

  /** The loaded list of one role, or the first error raised while building it. */
  function Loaded(a: Archive, paths: seq<string>, e: Engine, ns: Attrs): (r: Result<seq<Tree>, Error>)
    ensures r.Success? ==> |r.value| <= |paths|
    ensures r.Failure? ==> r.error.RootMissing?
  {
    if paths == [] then Success([])
    else LoadStep(Loaded(a, paths[..|paths| - 1], e, ns), a, paths[|paths| - 1], e, ns)
  }

  /** One iteration of a loading loop: skip a missing path, else load it or raise. */
  function LoadStep(before: Result<seq<Tree>, Error>, a: Archive, path: string, e: Engine, ns: Attrs): (r: Result<seq<Tree>, Error>)
    ensures before.Failure? ==> r == before
    ensures before.Success? && Read(a, path).None? ==> r == before
    ensures before.Success? && r.Success? ==> before.value <= r.value && |r.value| <= |before.value| + 1
    ensures before.Success? && r.Failure? ==> r.error == RootMissing(path)
  {
    match before
    case Failure(err) => Failure(err)
    case Success(trees) =>
      match Read(a, path)
      case None => Success(trees)
      case Some(bytes) =>
        match LoadPart(e, path, bytes, ns)
        case Failure(err) => Failure(err)
        case Success(t) => Success(trees + [t])
  }

  /** One loading loop (`paths.each` guarded by `find_entry`, appending with `<<`). */
  method LoadParts(a: Archive, paths: seq<string>, e: Engine, ns: Attrs) returns (r: Result<seq<Tree>, Error>)
    ensures r == Loaded(a, paths, e, ns)
  {
    var trees := [];
    for i := 0 to |paths|
      invariant Loaded(a, paths[..i], e, ns) == Success(trees)
    {
      assert paths[..i + 1][..i] == paths[..i];
      var found := Read(a, paths[i]);
      if found.Some? {
        var part := LoadPart(e, paths[i], found.value, ns);
        if part.Failure? {
          LoadedFailureSticks(a, paths, i + 1, e, ns);
          return Failure(part.error);
        }
        trees := trees + [part.value];
      }
    }
    assert paths[..|paths|] == paths;
    return Success(trees);
  }

  /** Once loading a prefix has raised, loading the whole list raises the same error. */
  lemma {:induction false} LoadedFailureSticks(a: Archive, paths: seq<string>, k: nat, e: Engine, ns: Attrs)
    requires k <= |paths|
    requires Loaded(a, paths[..k], e, ns).Failure?
    ensures Loaded(a, paths, e, ns) == Loaded(a, paths[..k], e, ns)
    decreases |paths| - k
  {
    if k < |paths| {
      var init := paths[..|paths| - 1];
      assert init[..k] == paths[..k];
      LoadedFailureSticks(a, init, k, e, ns);
    } else {
      assert paths[..k] == paths;
    }
  }

  /** Missing entries are invisible: loading the declared paths is loading the present ones. */
  lemma {:induction false} LoadedSkipsMissing(a: Archive, paths: seq<string>, e: Engine, ns: Attrs)
    ensures Loaded(a, paths, e, ns) == Loaded(a, Present(a, paths), e, ns)
    decreases |paths|
  {
    if paths != [] {
      var init := paths[..|paths| - 1];
      var last := paths[|paths| - 1];
      LoadedSkipsMissing(a, init, e, ns);
      var before := Loaded(a, init, e, ns);
      assert Loaded(a, paths, e, ns) == LoadStep(before, a, last, e, ns);
      if Read(a, last).Some? {
        var p := Present(a, paths);
        assert p == Present(a, init) + [last];
        assert p[..|p| - 1] == Present(a, init);
        assert Loaded(a, p, e, ns) == LoadStep(before, a, last, e, ns);
      } else {
        assert Present(a, paths) == Present(a, init);
        assert LoadStep(before, a, last, e, ns) == before;
      }
    }
  }

  /**
   * A successful load holds one tree per present path, in discovered order:
   * its length is the declared count minus the missing count.
   */
  lemma {:induction false} LoadedShape(a: Archive, paths: seq<string>, e: Engine, ns: Attrs)
    requires Loaded(a, paths, e, ns).Success?
    ensures |Loaded(a, paths, e, ns).value| == |Present(a, paths)| == |paths| - |Missing(a, paths)|
    ensures forall i :: 0 <= i < |Present(a, paths)| ==>
      Read(a, Present(a, paths)[i]).Some? &&
      LoadPart(e, Present(a, paths)[i], Read(a, Present(a, paths)[i]).value, ns) ==
        Success(Loaded(a, paths, e, ns).value[i])
    decreases |paths|
  {
    PresentCount(a, paths);
    if paths != [] {
      var init := paths[..|paths| - 1];
      LoadedShape(a, init, e, ns);
    }
  }

  /**
   * The only error loading raises: a present path whose bytes parse without a
   * root, while a namespace set is to be assigned.
   */
  lemma {:induction false} LoadedFailureCause(a: Archive, paths: seq<string>, e: Engine, ns: Attrs)
    requires Loaded(a, paths, e, ns).Failure?
    ensures var err := Loaded(a, paths, e, ns).error;
      err.RootMissing? && err.path in paths && ns != map[] &&
      Read(a, err.path).Some? && e.parse(Read(a, err.path).value).NoRoot?
    decreases |paths|
  {
    var init := paths[..|paths| - 1];
    if Loaded(a, init, e, ns).Failure? {
      LoadedFailureCause(a, init, e, ns);
      assert Loaded(a, paths, e, ns) == Loaded(a, init, e, ns);
      assert Loaded(a, paths, e, ns).error.path in init;
    }
  }

  /** Parts whose roots are left alone (no assignments) never make loading raise. */
  lemma {:induction false} LoadedWithoutNamespaces(a: Archive, paths: seq<string>, e: Engine)
    ensures Loaded(a, paths, e, NoNamespaces).Success?
    decreases |paths|
  {
    if paths != [] {
      LoadedWithoutNamespaces(a, paths[..|paths| - 1], e);
    }
  }

  /**
   * When the engine's serialise-and-parse pass is faithful, every loaded tree
   * has a root carrying the assigned namespace set, with its other attributes
   * as the archive had them.
   */
  lemma LoadedRootsNormalized(a: Archive, paths: seq<string>, e: Engine, ns: Attrs)
    requires RoundTrips(e) && ns != map[]
    requires Loaded(a, paths, e, ns).Success?
    ensures |Loaded(a, paths, e, ns).value| == |Present(a, paths)|
    ensures forall i :: 0 <= i < |Present(a, paths)| ==>
      var original := e.parse(Read(a, Present(a, paths)[i]).value);
      original.Rooted? &&
      Loaded(a, paths, e, ns).value[i] == Rooted(Normalize(original.attrs, ns), original.nodes)
  {
    LoadedShape(a, paths, e, ns);
  }
}

=== FILE: ruby_string.dfy ===
/** The two pieces of Ruby's string library the queries rely on: `Array#join` and `String#to_i`. */
module RubyString {

  /** `parts.join(sep)`. */
  function Join(parts: seq<string>, sep: string): (r: string)
    ensures parts == [] ==> r == ""
    ensures |parts| >= 1 ==> parts[0] <= r
  {
    if parts == [] then ""
    else if |parts| == 1 then parts[0]
    else parts[0] + sep + Join(parts[1..], sep)
  }

  function TotalLength(parts: seq<string>): nat {
    if parts == [] then 0 else |parts[0]| + TotalLength(parts[1..])
  }

  /** Where piece `i` begins in `Join(parts, sep)`. */
  function PieceStart(parts: seq<string>, sep: string, i: nat): nat
    requires i < |parts|
  {
    if i == 0 then 0 else |parts[0]| + |sep| + PieceStart(parts[1..], sep, i - 1)
  }

  /** Where piece `i` ends in `Join(parts, sep)`: where the separator after it, if any, begins. */
  function PieceEnd(parts: seq<string>, sep: string, i: nat): nat
    requires i < |parts|
  {
    PieceStart(parts, sep, i) + |parts[i]|
  }

  /** `n >= 1` pieces joined have the pieces' length plus `n - 1` separators. */
  lemma {:induction false} JoinLength(parts: seq<string>, sep: string)
    requires |parts| >= 1
    ensures |Join(parts, sep)| == TotalLength(parts) + (|parts| - 1) * |sep|
  {
    if |parts| > 1 {
      JoinLength(parts[1..], sep);
    }
  }

  lemma SliceAfterPrefix(x: string, y: string, lo: nat, hi: nat)
    requires |x| <= lo <= hi <= |x| + |y|
    ensures (x + y)[lo..hi] == y[lo - |x|..hi - |x|]
  {
  }

  lemma SliceBeforeEnd(x: string, y: string, lo: nat, hi: nat)
    requires lo <= hi <= |x|
    ensures (x + y)[lo..hi] == x[lo..hi]
  {
  }

  /** Piece `i` of the joined string sits at `PieceStart(i)`. */
  lemma {:induction false} JoinPieceAt(parts: seq<string>, sep: string, i: nat)
    requires i < |parts|
    ensures PieceStart(parts, sep, i) + |parts[i]| <= |Join(parts, sep)|
    ensures Join(parts, sep)[PieceStart(parts, sep, i)..PieceStart(parts, sep, i) + |parts[i]|] == parts[i]
  {
    var whole := Join(parts, sep);
    if i == 0 {
      assert parts[0] <= whole;
    } else {
      var head := parts[0] + sep;
      var rest := Join(parts[1..], sep);
      assert whole == head + rest;
      JoinPieceAt(parts[1..], sep, i - 1);
      var start := PieceStart(parts[1..], sep, i - 1);
      assert PieceStart(parts, sep, i) == |head| + start;
      assert parts[1..][i - 1] == parts[i];
      SliceAfterPrefix(head, rest, |head| + start, |head| + start + |parts[i]|);
    }
  }

  /** Every piece but the last is followed by exactly one separator, after which the next piece starts. */
  lemma {:induction false} JoinSeparatorAfter(parts: seq<string>, sep: string, i: nat)
    requires i + 1 < |parts|
    ensures PieceStart(parts, sep, i) + |parts[i]| + |sep| == PieceStart(parts, sep, i + 1)
    ensures PieceStart(parts, sep, i + 1) <= |Join(parts, sep)|
    ensures Join(parts, sep)[PieceStart(parts, sep, i) + |parts[i]|..PieceStart(parts, sep, i + 1)] == sep
  {
    var head := parts[0] + sep;
    var rest := Join(parts[1..], sep);
    assert Join(parts, sep) == head + rest;
    if i == 0 {
      assert PieceStart(parts, sep, 1) == |head| + PieceStart(parts[1..], sep, 0);
      assert head[|parts[0]|..|head|] == sep;
      SliceBeforeEnd(head, rest, |parts[0]|, |head|);
    } else {
      JoinSeparatorAfter(parts[1..], sep, i - 1);
      var start := PieceStart(parts[1..], sep, i - 1);
      assert PieceStart(parts, sep, i) == |head| + start;
      assert PieceStart(parts, sep, i + 1) == |head| + PieceStart(parts[1..], sep, i);
      assert parts[1..][i - 1] == parts[i];
      SliceAfterPrefix(head, rest, |head| + start + |parts[i]|, |head| + PieceStart(parts[1..], sep, i));
    }
  }

  /** The separator after piece `i`, character by character. */
  lemma SeparatorChars(parts: seq<string>, sep: string, i: nat)
    requires i + 1 < |parts|
    ensures PieceEnd(parts, sep, i) + |sep| <= |Join(parts, sep)|
    ensures forall k :: 0 <= k < |sep| ==> Join(parts, sep)[PieceEnd(parts, sep, i) + k] == sep[k]
  {
    JoinSeparatorAfter(parts, sep, i);
    var whole := Join(parts, sep);
    var end := PieceEnd(parts, sep, i);
    forall k | 0 <= k < |sep| ensures whole[end + k] == sep[k] {
      assert whole[end..end + |sep|][k] == whole[end + k];
    }
  }

  /** `Join` as a whole, first half: every piece sits between its start and end offsets. */
  lemma JoinEveryPiece(parts: seq<string>, sep: string)
    ensures forall i :: 0 <= i < |parts| ==>
      PieceEnd(parts, sep, i) <= |Join(parts, sep)| &&
      Join(parts, sep)[PieceStart(parts, sep, i)..PieceEnd(parts, sep, i)] == parts[i]
  {
    forall i | 0 <= i < |parts|
      ensures PieceEnd(parts, sep, i) <= |Join(parts, sep)|
      ensures Join(parts, sep)[PieceStart(parts, sep, i)..PieceEnd(parts, sep, i)] == parts[i]
    {
      JoinPieceAt(parts, sep, i);
    }
  }

  /** `Join` as a whole, second half: exactly one separator follows every piece but the last. */
  lemma JoinEverySeparator(parts: seq<string>, sep: string)
    ensures forall i :: 0 <= i < |parts| - 1 ==>
      PieceEnd(parts, sep, i) + |sep| <= |Join(parts, sep)| &&
      Join(parts, sep)[PieceEnd(parts, sep, i)..PieceEnd(parts, sep, i) + |sep|] == sep
  {
    forall i | 0 <= i < |parts| - 1
      ensures PieceEnd(parts, sep, i) + |sep| <= |Join(parts, sep)|
      ensures Join(parts, sep)[PieceEnd(parts, sep, i)..PieceEnd(parts, sep, i) + |sep|] == sep
    {
      JoinSeparatorAfter(parts, sep, i);
      assert PieceEnd(parts, sep, i) + |sep| == PieceStart(parts, sep, i + 1);
    }
  }

  predicate IsDigit(c: char) {
    '0' <= c <= '9'
  }

  /** The characters `to_i` skips before the number: space, tab, newline, vertical tab, form feed, carriage return. */
  predicate IsSpace(c: char) {
    c == ' ' || '\t' <= c <= '\r'
  }

  function SkipSpace(s: string): (r: string)
    ensures |r| <= |s| && r == s[|s| - |r|..]
    ensures |r| > 0 ==> !IsSpace(r[0])
    ensures forall i :: 0 <= i < |s| - |r| ==> IsSpace(s[i])
  {
    if |s| > 0 && IsSpace(s[0]) then SkipSpace(s[1..]) else s
  }

  predicate AllDigits(s: string) {
    forall i :: 0 <= i < |s| ==> IsDigit(s[i])
  }

  /** The longest prefix of digits. */
  function LeadingDigits(s: string): (r: string)
    ensures AllDigits(r) && r <= s
    ensures |r| < |s| ==> !IsDigit(s[|r|])
  {
    if |s| > 0 && IsDigit(s[0]) then [s[0]] + LeadingDigits(s[1..]) else []
  }

  /** The decimal value of a string of digits. */
  function DigitsValue(ds: string): nat
    requires AllDigits(ds)
  {
    if ds == [] then 0
    else DigitsValue(ds[..|ds| - 1]) * 10 + (ds[|ds| - 1] as int - '0' as int)
  }

  /**
   * The value read after the sign: base 10 accepts an optional `0d` or `0D`
   * radix prefix, then the longest run of decimal digits is read.
   */
  function UnsignedValue(u: string): (v: nat)
    ensures (forall i :: 0 <= i < |u| ==> !IsDigit(u[i])) ==> v == 0
  {
    var digits := if |u| >= 2 && u[0] == '0' && (u[1] == 'd' || u[1] == 'D') then u[2..] else u;
    DigitsValue(LeadingDigits(digits))
  }

  /**
   * `String#to_i`: leading white space is skipped, then an optional sign, an
   * optional `0d`/`0D` prefix and the longest run of decimal digits are read;
   * text with no digit where they are expected yields 0.
   */
  function ToI(s: string): (r: int)
    ensures r < 0 ==> |SkipSpace(s)| > 0 && SkipSpace(s)[0] == '-'
    ensures (forall i :: 0 <= i < |s| ==> !IsDigit(s[i])) ==> r == 0
  {
    var t := SkipSpace(s);
    var k := |s| - |t|;
    assert forall j :: 0 <= j < |t| ==> t[j] == s[k + j];
    if |t| > 0 && t[0] == '-' then -(UnsignedValue(t[1..]) as int)
    else if |t| > 0 && t[0] == '+' then UnsignedValue(t[1..])
    else UnsignedValue(t)
  }

  /** The decimal rendering of a natural number, as `Integer#to_s` writes it. */
  function Decimal(n: nat): (r: string)
    ensures |r| >= 1 && AllDigits(r)
  {
    if n < 10 then [('0' as int + n) as char]
    else Decimal(n / 10) + [('0' as int + n % 10) as char]
  }

  lemma {:induction false} LeadingDigitsOfDigits(ds: string)
    requires AllDigits(ds)
    ensures LeadingDigits(ds) == ds
  {
    if ds != [] {
      LeadingDigitsOfDigits(ds[1..]);
    }
  }

  lemma {:induction false} DecimalValue(n: nat)
    ensures DigitsValue(Decimal(n)) == n
  {
    if n >= 10 {
      var ds := Decimal(n);
      assert ds[..|ds| - 1] == Decimal(n / 10);
      DecimalValue(n / 10);
    }
  }

  /** `to_i` reads back what `to_s` writes, unsigned or with either sign. */
  lemma ToIDecimal(n: nat)
    ensures ToI(Decimal(n)) == n
    ensures ToI("-" + Decimal(n)) == -(n as int)
    ensures ToI("+" + Decimal(n)) == n
  {
    var ds := Decimal(n);
    LeadingDigitsOfDigits(ds);
    DecimalValue(n);
    ToIUnsigned(ds);
    ToISigned(ds, '-');
    ToISigned(ds, '+');
  }

  /** Text that does not start with white space is not skipped into. */
  lemma SkipSpaceNone(s: string)
    requires |s| > 0 && !IsSpace(s[0])
    ensures SkipSpace(s) == s
  {
  }

  /** Digits with no `0d` prefix read as their own decimal value. */
  lemma UnsignedOfDigits(ds: string)
    requires AllDigits(ds) && LeadingDigits(ds) == ds
    ensures UnsignedValue(ds) == DigitsValue(ds)
  {
    if |ds| >= 2 {
      assert IsDigit(ds[1]);
      assert ds[1] != 'd' && ds[1] != 'D';
    }
    assert !(|ds| >= 2 && ds[0] == '0' && (ds[1] == 'd' || ds[1] == 'D'));
  }

  lemma ToIUnsigned(ds: string)
    requires |ds| >= 1 && AllDigits(ds) && LeadingDigits(ds) == ds
    ensures ToI(ds) == DigitsValue(ds)
  {
    assert IsDigit(ds[0]);
    SkipSpaceNone(ds);
    UnsignedOfDigits(ds);
  }

  lemma ToISigned(ds: string, sign: char)
    requires AllDigits(ds) && LeadingDigits(ds) == ds
    requires sign == '-' || sign == '+'
    ensures ToI([sign] + ds) == if sign == '-' then -(DigitsValue(ds) as int) else DigitsValue(ds)
  {
    var t := [sign] + ds;
    SkipSpaceNone(t);
    assert t[1..] == ds;
    UnsignedOfDigits(ds);
  }

  /** The `0d`/`0D` radix prefix is read over, unsigned or after a minus sign. */
  lemma ToIDecimalPrefix(n: nat)
    ensures ToI("0d" + Decimal(n)) == n
    ensures ToI("0D" + Decimal(n)) == n
    ensures ToI("-0d" + Decimal(n)) == -(n as int)
  {
    var ds := Decimal(n);
    LeadingDigitsOfDigits(ds);
    DecimalValue(n);
    PrefixedValue(ds, 'd');
    PrefixedValue(ds, 'D');
    NegatedPrefixedValue(ds, 'd');
    assert "0d" + ds == ['0', 'd'] + ds;
    assert "0D" + ds == ['0', 'D'] + ds;
    assert "-0d" + ds == ['-', '0', 'd'] + ds;
  }

  lemma PrefixedValue(ds: string, d: char)
    requires AllDigits(ds) && LeadingDigits(ds) == ds
    requires d == 'd' || d == 'D'
    ensures UnsignedValue(['0', d] + ds) == DigitsValue(ds)
    ensures ToI(['0', d] + ds) == DigitsValue(ds)
  {
    var u := ['0', d] + ds;
    assert u[2..] == ds;
    SkipSpaceNone(u);
  }

  lemma NegatedPrefixedValue(ds: string, d: char)
    requires AllDigits(ds) && LeadingDigits(ds) == ds
    requires d == 'd' || d == 'D'
    ensures ToI(['-', '0', d] + ds) == -(DigitsValue(ds) as int)
  {
    var t := ['-', '0', d] + ds;
    SkipSpaceNone(t);
    assert t[1..] == ['0', d] + ds;
    PrefixedValue(ds, d);
  }
}

=== FILE: worksheet.dfy ===
/**
 * `Docx::Worksheet`, the spreadsheet package: the workbook and shared
 * strings are required and reparsed untouched, worksheets are loaded without
 * namespace changes, charts, drawings and comments get the sheet namespace
 * set, and saving serialises all of them into the edit buffer, pairing the
 * i-th declared path with the i-th loaded tree.
 */
module DocxWorksheet {
  import opened Wrappers
  import opened Zip
  import opened Xml
  import opened Discovery
  import opened Namespaces
  import opened PartLoader
  import opened PackageWriter

  const WorkbookPart := "xl/workbook.xml"
  const SharedStringsPart := "xl/sharedStrings.xml"
  const StylesPart := "xl/styles.xml"
  const ContentTypesPart := "[Content_Types].xml"

  /** Everything `initialize` computes. */
  datatype Parts = Parts(
    workbook: Tree,
    sharedStringsXml: Bytes,
    sharedStrings: Tree,
    manifest: seq<string>,
    worksheets: seq<string>,
    worksheetsXml: seq<Tree>,
    styles: Tree,
    charts: seq<string>,
    chartsXml: seq<Tree>,
    drawings: seq<string>,
    drawingsXml: seq<Tree>,
    comments: seq<string>,
    commentsXml: seq<Tree>)

  /** `initialize`, step by step, raising at the first missing required part or rootless normalised part. */
  function OpenParts(a: Archive, e: Engine): (r: Result<Parts, Error>)
    ensures Read(a, WorkbookPart).None? ==> r == Failure(EntryNotFound(WorkbookPart))
    ensures r.Failure? ==> r.error.EntryNotFound? || r.error.RootMissing?
  {
    var workbookXml :- ReadRequired(a, WorkbookPart);
    var workbook := Reparse(e, e.parse(workbookXml));
    var sharedStringsXml :- ReadRequired(a, SharedStringsPart);
    var sharedStrings := Reparse(e, e.parse(sharedStringsXml));
    var contentTypesXml :- ReadRequired(a, ContentTypesPart);
    var manifest := PartNames(e.parse(contentTypesXml));
    var worksheets := Discovered(manifest, Worksheet);
    var worksheetsXml :- Loaded(a, worksheets, e, NoNamespaces);
    var stylesXml :- ReadRequired(a, StylesPart);
    var charts := Discovered(manifest, Chart);
    var chartsXml :- Loaded(a, charts, e, SheetPartNamespaces);
    var drawings := Discovered(manifest, Drawing);
    var drawingsXml :- Loaded(a, drawings, e, SheetPartNamespaces);
    var comments := Discovered(manifest, Comment);
    var commentsXml :- Loaded(a, comments, e, SheetPartNamespaces);
    Success(Parts(workbook, sharedStringsXml, sharedStrings, manifest, worksheets, worksheetsXml,
                  e.parse(stylesXml), charts, chartsXml, drawings, drawingsXml, comments, commentsXml))
  }

  class Worksheet {
    /** `@zip`. */
    const archive: Archive
    const engine: Engine
    const manifest: seq<string>
    const sharedStringsXml: Bytes
    /** `@worksheets`, `@charts`, `@drawings`, `@comments`: the discovered paths. */
    const worksheets: seq<string>
    const charts: seq<string>
    const drawings: seq<string>
    const comments: seq<string>
    /**
     * The loaded trees. Callers edit a part by mutating its tree in place;
     * here that is an assignment to the field.
     */
    var workbook: Tree
    var sharedStrings: Tree
    var styles: Tree
    var worksheetsXml: seq<Tree>
    var chartsXml: seq<Tree>
    var drawingsXml: seq<Tree>
    var commentsXml: seq<Tree>
    /** `@replace`, the edit buffer. */
    var replace: EditBuffer

    /** The discovered lists are those of the manifest. */
    ghost predicate Valid() {
      && worksheets == Discovered(manifest, Worksheet)
      && charts == Discovered(manifest, Chart)
      && drawings == Discovered(manifest, Drawing)
      && comments == Discovered(manifest, Comment)
    }

    function State(): Parts
      reads this
    {
      Parts(workbook, sharedStringsXml, sharedStrings, manifest, worksheets, worksheetsXml,
            styles, charts, chartsXml, drawings, drawingsXml, comments, commentsXml)
    }

    constructor (a: Archive, e: Engine, p: Parts)
      requires p.worksheets == Discovered(p.manifest, Worksheet)
      requires p.charts == Discovered(p.manifest, Chart)
      requires p.drawings == Discovered(p.manifest, Drawing)
      requires p.comments == Discovered(p.manifest, Comment)
      ensures archive == a && engine == e && State() == p && replace == map[]
      ensures Valid()
    {
      archive, engine := a, e;
      manifest, sharedStringsXml := p.manifest, p.sharedStringsXml;
      worksheets, charts, drawings, comments := p.worksheets, p.charts, p.drawings, p.comments;
      workbook, sharedStrings, styles := p.workbook, p.sharedStrings, p.styles;
      worksheetsXml, chartsXml, drawingsXml, commentsXml := p.worksheetsXml, p.chartsXml, p.drawingsXml, p.commentsXml;
      replace := map[];
    }

    /** `Worksheet.open` / `Worksheet.new` without a block. */
    static method Open(a: Archive, e: Engine) returns (r: Result<Worksheet, Error>)
      ensures r.Failure? <==> OpenParts(a, e).Failure?
      ensures r.Failure? ==> r.error == OpenParts(a, e).error
      ensures r.Success? ==>
        && fresh(r.value)
        && r.value.archive == a && r.value.engine == e
        && r.value.State() == OpenParts(a, e).value
        && r.value.replace == map[]
        && r.value.Valid()
    {
      var workbookXml :- ReadRequired(a, WorkbookPart);
      var workbook := Reparse(e, e.parse(workbookXml));
      var sharedStringsXml :- ReadRequired(a, SharedStringsPart);
      var sharedStrings := Reparse(e, e.parse(sharedStringsXml));
      var contentTypesXml :- ReadRequired(a, ContentTypesPart);
      var manifest := PartNames(e.parse(contentTypesXml));
      var worksheets := CollectParts(manifest, Worksheet);
      var worksheetsXml :- LoadParts(a, worksheets, e, NoNamespaces);
      var stylesXml :- ReadRequired(a, StylesPart);
      var styles := e.parse(stylesXml);
      var charts := CollectParts(manifest, Chart);
      var chartsXml :- LoadParts(a, charts, e, SheetPartNamespaces);
      var drawings := CollectParts(manifest, Drawing);
      var drawingsXml :- LoadParts(a, drawings, e, SheetPartNamespaces);
      var comments := CollectParts(manifest, Comment);
      var commentsXml :- LoadParts(a, comments, e, SheetPartNamespaces);
      var w := new Worksheet(a, e, Parts(workbook, sharedStringsXml, sharedStrings, manifest, worksheets, worksheetsXml,
                                         styles, charts, chartsXml, drawings, drawingsXml, comments, commentsXml));
      return Success(w);
    }

    /** `replace_entry`: buffer bytes for a path; the last write for a path wins. */
    method ReplaceEntry(path: string, contents: Bytes)
      modifies this`replace
      ensures replace == old(replace)[path := contents]
    {
      replace := replace[path := contents];
    }

    /** The buffer after `update`, given the buffer before. */
    function Updated(m: EditBuffer): (r: EditBuffer)
      reads this
      ensures m.Keys <= r.Keys && WorkbookPart in r && SharedStringsPart in r
      ensures forall k :: k in r ==>
        k in m || k == WorkbookPart || k == SharedStringsPart || k in worksheets || k in charts || k in drawings || k in comments
    {
      var withWorkbook := m[WorkbookPart := engine.serialize(workbook)];
      var withStrings := withWorkbook[SharedStringsPart := engine.serialize(sharedStrings)];
      var withSheets := TrackedWrites(withStrings, worksheets, worksheetsXml, engine.serialize);
      var withCharts := TrackedWrites(withSheets, charts, chartsXml, engine.serialize);
      var withDrawings := TrackedWrites(withCharts, drawings, drawingsXml, engine.serialize);
      TrackedWrites(withDrawings, comments, commentsXml, engine.serialize)
    }

    /** One `each_with_index` loop of `update`. */
    method WriteTracked(paths: seq<string>, trees: seq<Tree>)
      modifies this`replace
      ensures replace == TrackedWrites(old(replace), paths, trees, engine.serialize)
    {
      for i := 0 to |paths|
        invariant replace == TrackedWrites(old(replace), paths[..i], trees, engine.serialize)
      {
        assert paths[..i + 1][..i] == paths[..i];
        if i < |trees| {
          ReplaceEntry(paths[i], engine.serialize(trees[i]));
        }
      }
      assert paths[..|paths|] == paths;
    }

    /**
     * `update`: the workbook and shared strings, then every worksheet, chart,
     * drawing and comment path paired by index with the loaded list.
     */
    method Update()
      modifies this`replace
      ensures replace == Updated(old(replace))
    {
      ReplaceEntry(WorkbookPart, engine.serialize(workbook));
      ReplaceEntry(SharedStringsPart, engine.serialize(sharedStrings));
      WriteTracked(worksheets, worksheetsXml);
      WriteTracked(charts, chartsXml);
      WriteTracked(drawings, drawingsXml);
      WriteTracked(comments, commentsXml);
    }

    /** `save`: update the buffer, then write every original entry, substituted, to the destination. */
    method Save() returns (written: seq<Entry>)
      modifies this`replace
      ensures replace == Updated(old(replace))
      ensures written == Substitute(archive, replace)
    {
      Update();
      written := StreamEntries(archive, replace);
    }

    /** `save_and_return`: the same archive, written to an in-memory buffer that is returned. */
    method SaveAndReturn() returns (buffer: seq<Entry>)
      modifies this`replace
      ensures replace == Updated(old(replace))
      ensures buffer == Substitute(archive, replace)
    {
      Update();
      buffer := StreamEntries(archive, replace);
    }
  }

  /** No tracked role ever discovers the workbook: it names no worksheet, chart, drawing or comment. */
  lemma WorkbookMatchesNoRole()
    ensures forall c: char :: !Matches(Worksheet, [c] + WorkbookPart) && !Matches(Chart, [c] + WorkbookPart)
    ensures forall c: char :: !Matches(Drawing, [c] + WorkbookPart) && !Matches(Comment, [c] + WorkbookPart)
  {
    AbsentLetterExcludes(WorkbookPart, "worksheets", 9);
    AbsentLetterExcludes(WorkbookPart, "charts/ch", 1);
    AbsentLetterExcludes(WorkbookPart, "drawings", 2);
    AbsentLetterExcludes(WorkbookPart, "comments", 4);
  }

  /** No tracked role ever discovers the shared strings. */
  lemma SharedStringsMatchNoRole()
    ensures forall c: char :: !Matches(Worksheet, [c] + SharedStringsPart) && !Matches(Chart, [c] + SharedStringsPart)
    ensures forall c: char :: !Matches(Drawing, [c] + SharedStringsPart) && !Matches(Comment, [c] + SharedStringsPart)
  {
    AbsentLetterExcludes(SharedStringsPart, "worksheets", 3);
    AbsentLetterExcludes(SharedStringsPart, "charts/ch", 7);
    AbsentLetterExcludes(SharedStringsPart, "drawings", 3);
    AbsentLetterExcludes(SharedStringsPart, "comments", 1);
  }

  /** No tracked role ever discovers the styles. */
  lemma StylesMatchNoRole()
    ensures forall c: char :: !Matches(Worksheet, [c] + StylesPart) && !Matches(Chart, [c] + StylesPart)
    ensures forall c: char :: !Matches(Drawing, [c] + StylesPart) && !Matches(Comment, [c] + StylesPart)
  {
    AbsentLetterExcludes(StylesPart, "worksheets", 1);
    AbsentLetterExcludes(StylesPart, "charts/ch", 1);
    AbsentLetterExcludes(StylesPart, "drawings", 1);
    AbsentLetterExcludes(StylesPart, "comments", 1);
  }

  /** A path that no tracked role discovered keeps, through `update`, what the earlier writes left there. */
  lemma UpdateTrackedElsewhere(w: Worksheet, m: EditBuffer, k: string)
    requires w.Valid()
    requires k !in w.worksheets && k !in w.charts && k !in w.drawings && k !in w.comments
    ensures var before := m[WorkbookPart := w.engine.serialize(w.workbook)][SharedStringsPart := w.engine.serialize(w.sharedStrings)];
      (k in w.Updated(m) <==> k in before) && (k in before ==> w.Updated(m)[k] == before[k])
  {
    var ser := w.engine.serialize;
    var withStrings := m[WorkbookPart := ser(w.workbook)][SharedStringsPart := ser(w.sharedStrings)];
    TrackedWritesElsewhere(withStrings, w.worksheets, w.worksheetsXml, ser, k);
    var withSheets := TrackedWrites(withStrings, w.worksheets, w.worksheetsXml, ser);
    TrackedWritesElsewhere(withSheets, w.charts, w.chartsXml, ser, k);
    var withCharts := TrackedWrites(withSheets, w.charts, w.chartsXml, ser);
    TrackedWritesElsewhere(withCharts, w.drawings, w.drawingsXml, ser, k);
    var withDrawings := TrackedWrites(withCharts, w.drawings, w.drawingsXml, ser);
    TrackedWritesElsewhere(withDrawings, w.comments, w.commentsXml, ser, k);
  }

  /** A fixed part is never among the discovered paths. */
  lemma FixedPartUndiscovered(w: Worksheet, k: string)
    requires w.Valid()
    requires k == WorkbookPart || k == SharedStringsPart || k == StylesPart
    ensures k !in w.worksheets && k !in w.charts && k !in w.drawings && k !in w.comments
  {
    if k == WorkbookPart {
      WorkbookMatchesNoRole();
    } else if k == SharedStringsPart {
      SharedStringsMatchNoRole();
    } else {
      StylesMatchNoRole();
    }
    NeverDiscovered(w.manifest, Worksheet, k);
    NeverDiscovered(w.manifest, Chart, k);
    NeverDiscovered(w.manifest, Drawing, k);
    NeverDiscovered(w.manifest, Comment, k);
  }

  /**
   * `update` always buffers the serialised workbook and shared strings,
   * whatever was buffered for them before, and never buffers the styles:
   * the styles entry is buffered afterwards exactly when it was before.
   */
  lemma UpdateFixedParts(w: Worksheet, m: EditBuffer)
    requires w.Valid()
    ensures WorkbookPart in w.Updated(m) && w.Updated(m)[WorkbookPart] == w.engine.serialize(w.workbook)
    ensures SharedStringsPart in w.Updated(m) && w.Updated(m)[SharedStringsPart] == w.engine.serialize(w.sharedStrings)
    ensures StylesPart in w.Updated(m) <==> StylesPart in m
    ensures StylesPart in m ==> w.Updated(m)[StylesPart] == m[StylesPart]
  {
    FixedPartUndiscovered(w, WorkbookPart);
    UpdateTrackedElsewhere(w, m, WorkbookPart);
    FixedPartUndiscovered(w, SharedStringsPart);
    UpdateTrackedElsewhere(w, m, SharedStringsPart);
    FixedPartUndiscovered(w, StylesPart);
    UpdateTrackedElsewhere(w, m, StylesPart);
  }

  /**
   * What a save writes: the original entries in their original order; the
   * workbook and shared strings carry their serialisations; the styles carry
   * the bytes buffered by `replace_entry` if any, else the original bytes.
   */
  lemma SaveOutput(w: Worksheet, m: EditBuffer)
    requires w.Valid()
    ensures Names(Substitute(w.archive, w.Updated(m))) == Names(w.archive)
    ensures forall i :: 0 <= i < |w.archive| && w.archive[i].name == WorkbookPart ==>
      Substitute(w.archive, w.Updated(m))[i].data == w.engine.serialize(w.workbook)
    ensures forall i :: 0 <= i < |w.archive| && w.archive[i].name == SharedStringsPart ==>
      Substitute(w.archive, w.Updated(m))[i].data == w.engine.serialize(w.sharedStrings)
    ensures forall i :: 0 <= i < |w.archive| && w.archive[i].name == StylesPart ==>
      Substitute(w.archive, w.Updated(m))[i].data == if StylesPart in m then m[StylesPart] else w.archive[i].data
  {
    UpdateFixedParts(w, m);
    SubstituteSpec(w.archive, w.Updated(m));
  }

  /**
   * The index pairing of `update`: with distinct declared worksheet paths,
   * the i-th declared path receives the i-th loaded tree while i is below the
   * loaded count, and the remaining declared paths (as many as are missing)
   * keep what was buffered before.
   */
  lemma UpdateSheetPairing(w: Worksheet, m: EditBuffer, i: nat)
    requires w.Valid() && NoDuplicates(w.worksheets)
    requires i < |w.worksheets|
    requires |w.worksheetsXml| == |w.worksheets| - |Missing(w.archive, w.worksheets)|
    ensures var before := m[WorkbookPart := w.engine.serialize(w.workbook)][SharedStringsPart := w.engine.serialize(w.sharedStrings)];
      var after := TrackedWrites(before, w.worksheets, w.worksheetsXml, w.engine.serialize);
      && (i < |w.worksheets| - |Missing(w.archive, w.worksheets)| ==>
            w.worksheets[i] in after && after[w.worksheets[i]] == w.engine.serialize(w.worksheetsXml[i]))
      && (i >= |w.worksheets| - |Missing(w.archive, w.worksheets)| ==>
            (w.worksheets[i] in after <==> w.worksheets[i] in before) &&
            (w.worksheets[i] in before ==> after[w.worksheets[i]] == before[w.worksheets[i]]))
  {
    var ser := w.engine.serialize;
    var before := m[WorkbookPart := ser(w.workbook)][SharedStringsPart := ser(w.sharedStrings)];
    TrackedWritesPairing(before, w.worksheets, w.worksheetsXml, ser);
  }

  /** Opening never raises on a worksheet: those roots receive no attribute, so only a missing required part or a rootless chart, drawing or comment raises. */
  lemma OpenFailures(a: Archive, e: Engine)
    requires OpenParts(a, e).Failure?
    ensures var err := OpenParts(a, e).error;
      err in {EntryNotFound(WorkbookPart), EntryNotFound(SharedStringsPart), EntryNotFound(ContentTypesPart), EntryNotFound(StylesPart)} ||
      (err.RootMissing? && Read(a, err.path).Some? && e.parse(Read(a, err.path).value).NoRoot?)
  {
    if ReadRequired(a, WorkbookPart).Success? && ReadRequired(a, SharedStringsPart).Success? && ReadRequired(a, ContentTypesPart).Success? {
      var manifest := PartNames(e.parse(ReadRequired(a, ContentTypesPart).value));
      var worksheets := Discovered(manifest, Worksheet);
      LoadedWithoutNamespaces(a, worksheets, e);
      if ReadRequired(a, StylesPart).Success? {
        var charts := Discovered(manifest, Chart);
        var drawings := Discovered(manifest, Drawing);
        var comments := Discovered(manifest, Comment);
        if Loaded(a, charts, e, SheetPartNamespaces).Failure? {
          LoadedFailureCause(a, charts, e, SheetPartNamespaces);
        } else if Loaded(a, drawings, e, SheetPartNamespaces).Failure? {
          LoadedFailureCause(a, drawings, e, SheetPartNamespaces);
        } else {
          LoadedFailureCause(a, comments, e, SheetPartNamespaces);
        }
      }
    }
  }

  /**
   * What a successful open holds: each discovered list is the manifest's
   * paths for its role, and each loaded list has one tree per discovered path
   * the archive holds.
   */
  lemma OpenedWorksheet(a: Archive, e: Engine)
    requires OpenParts(a, e).Success?
    ensures var p := OpenParts(a, e).value;
      && p.worksheets == Discovered(p.manifest, Worksheet)
      && p.charts == Discovered(p.manifest, Chart)
      && p.drawings == Discovered(p.manifest, Drawing)
      && p.comments == Discovered(p.manifest, Comment)
      && |p.worksheetsXml| == |p.worksheets| - |Missing(a, p.worksheets)|
      && |p.chartsXml| == |p.charts| - |Missing(a, p.charts)|
      && |p.drawingsXml| == |p.drawings| - |Missing(a, p.drawings)|
      && |p.commentsXml| == |p.comments| - |Missing(a, p.comments)|
  {
    var p := OpenedParts(a, e);
    LoadedShape(a, p.worksheets, e, NoNamespaces);
    LoadedShape(a, p.charts, e, SheetPartNamespaces);
    LoadedShape(a, p.drawings, e, SheetPartNamespaces);
    LoadedShape(a, p.comments, e, SheetPartNamespaces);
  }

  /**
   * The workbook, the shared strings and every worksheet are the archive's
   * parts after one serialise-and-parse pass, with no attribute assigned.
   */
  lemma OpenedPartsUntouched(a: Archive, e: Engine)
    requires OpenParts(a, e).Success?
    ensures var p := OpenParts(a, e).value;
      && p.workbook == Reparse(e, e.parse(Read(a, WorkbookPart).value))
      && p.sharedStrings == Reparse(e, e.parse(Read(a, SharedStringsPart).value))
      && |p.worksheetsXml| == |Present(a, p.worksheets)|
      && (forall i :: 0 <= i < |p.worksheetsXml| ==>
            p.worksheetsXml[i] == Reparse(e, e.parse(Read(a, Present(a, p.worksheets)[i]).value)))
  {
    var p := OpenedParts(a, e);
    LoadedShape(a, p.worksheets, e, NoNamespaces);
    forall i | 0 <= i < |p.worksheetsXml|
      ensures p.worksheetsXml[i] == Reparse(e, e.parse(Read(a, Present(a, p.worksheets)[i]).value))
    {
      NormalizeNothing(e.parse(Read(a, Present(a, p.worksheets)[i]).value));
    }
  }

  /** The steps of a successful open, spelled out. */
  lemma OpenedParts(a: Archive, e: Engine) returns (p: Parts)
    requires OpenParts(a, e).Success?
    ensures p == OpenParts(a, e).value
    ensures Read(a, WorkbookPart).Some? && Read(a, SharedStringsPart).Some? && Read(a, ContentTypesPart).Some?
    ensures p.workbook == Reparse(e, e.parse(Read(a, WorkbookPart).value))
    ensures p.sharedStrings == Reparse(e, e.parse(Read(a, SharedStringsPart).value))
    ensures p.manifest == PartNames(e.parse(Read(a, ContentTypesPart).value))
    ensures p.worksheets == Discovered(p.manifest, Worksheet) && Loaded(a, p.worksheets, e, NoNamespaces) == Success(p.worksheetsXml)
    ensures p.charts == Discovered(p.manifest, Chart) && Loaded(a, p.charts, e, SheetPartNamespaces) == Success(p.chartsXml)
    ensures p.drawings == Discovered(p.manifest, Drawing) && Loaded(a, p.drawings, e, SheetPartNamespaces) == Success(p.drawingsXml)
    ensures p.comments == Discovered(p.manifest, Comment) && Loaded(a, p.comments, e, SheetPartNamespaces) == Success(p.commentsXml)
  {
    var workbookXml := ReadRequired(a, WorkbookPart).value;
    var sharedStringsXml := ReadRequired(a, SharedStringsPart).value;
    var contentTypesXml := ReadRequired(a, ContentTypesPart).value;
    var manifest := PartNames(e.parse(contentTypesXml));
    var worksheets := Discovered(manifest, Worksheet);
    var worksheetsXml := Loaded(a, worksheets, e, NoNamespaces);
    var stylesXml := ReadRequired(a, StylesPart).value;
    var charts := Discovered(manifest, Chart);
    var chartsXml := Loaded(a, charts, e, SheetPartNamespaces);
    var drawings := Discovered(manifest, Drawing);
    var drawingsXml := Loaded(a, drawings, e, SheetPartNamespaces);
    var comments := Discovered(manifest, Comment);
    var commentsXml := Loaded(a, comments, e, SheetPartNamespaces);
    assert worksheetsXml.Success? && chartsXml.Success? && drawingsXml.Success? && commentsXml.Success?;
    p := Parts(Reparse(e, e.parse(workbookXml)), sharedStringsXml, Reparse(e, e.parse(sharedStringsXml)), manifest,
               worksheets, worksheetsXml.value, e.parse(stylesXml), charts, chartsXml.value,
               drawings, drawingsXml.value, comments, commentsXml.value);
    assert p == OpenParts(a, e).value;
  }
}

=== FILE: wrappers.dfy ===
/** Failure-compatible wrappers shared by the package model. */
module Wrappers {

  datatype Option<+T> = None | Some(value: T)

  /** The outcome of an operation that may raise instead of returning. */
  datatype Result<+R, +E> = Success(value: R) | Failure(error: E) {

    predicate IsFailure() {
      Failure?
    }

    function PropagateFailure<U>(): Result<U, E>
      requires Failure?
    {
      Failure(error)
    }

    function Extract(): R
      requires Success?
    {
      value
    }
  }
}

=== FILE: xml.dfy ===
/**
 * The XML engine (Nokogiri) as an abstract collaborator. A parsed part is
 * either a document without a root element or a root element with its
 * attribute map and the pre-order list of the elements below it; only the
 * element kinds the package classes query are told apart. Parsing and the two
 * serialisations the code uses (`to_xml` with AS_XML, `serialize` with
 * save_with 0) are functions supplied by the caller.
 */
module Xml {
  import opened Zip

  type Attrs = map<string, string>

  datatype Node =
    /** a `w:p` below `w:document//w:body`, with its projection's `to_s` and `to_html` */
    | ParagraphNode(text: string, html: string)
    /** a `w:tbl` below `w:document//w:body` */
    | TableNode(markup: string)
    /** a `w:bookmarkStart`, with its `w:name` and `w:id` */
    | BookmarkStartNode(name: string, id: string)
    /** a `w:sz` below `w:docDefaults//w:rPrDefault//w:rPr`, with its `w:val` */
    | DefaultSizeNode(val: string)
    /** an `Override` element of the content-type manifest, with its `PartName` */
    | OverrideNode(partName: string)
    /** any other element */
    | OtherNode(tag: string)

  datatype Tree = NoRoot | Rooted(attrs: Attrs, nodes: seq<Node>)

  datatype Engine = Engine(
    parse: Bytes -> Tree,
    toXml: Tree -> Bytes,
    serialize: Tree -> Bytes)

  /** The elements below the root, in document order (none without a root). */
  function NodesOf(t: Tree): seq<Node> {
    if t.Rooted? then t.nodes else []
  }

  /** `Nokogiri::XML(t.to_xml(...))`: the serialise-and-parse pass after loading. */
  function Reparse(e: Engine, t: Tree): Tree {
    e.parse(e.toXml(t))
  }

  /** An engine whose serialise-and-parse pass gives back the tree it was given. */
  ghost predicate RoundTrips(e: Engine) {
    forall t :: Reparse(e, t) == t
  }

  /** An XPath or CSS selection: the elements satisfying `keep`, in document order. */
  function Select(nodes: seq<Node>, keep: Node -> bool): (r: seq<Node>)
    ensures |r| <= |nodes|
    ensures forall n :: n in r <==> n in nodes && keep(n)
  {
    if nodes == [] then []
    else
      var last := nodes[|nodes| - 1];
      Select(nodes[..|nodes| - 1], keep) + (if keep(last) then [last] else [])
  }

  /** Selection commutes with concatenation: it keeps document order. */
  lemma {:induction false} SelectAppend(xs: seq<Node>, ys: seq<Node>, keep: Node -> bool)
    ensures Select(xs + ys, keep) == Select(xs, keep) + Select(ys, keep)
    decreases |ys|
  {
    if ys == [] {
      assert xs + ys == xs;
    } else {
      var init := ys[..|ys| - 1];
      assert (xs + ys)[..|xs + ys| - 1] == xs + init;
      SelectAppend(xs, init, keep);
    }
  }
}

=== FILE: zip.dfy ===
/**
 * The zip container, seen only through what the package classes use of it:
 * the list of entries in archive order, lookup by name (`find_entry` and
 * `read`) and the entries' bytes. Compression and the file system are not
 * part of this model.
 */
module Zip {
  import opened Wrappers

  newtype byte = b: int | 0 <= b < 0x100
  type Bytes = seq<byte>

  datatype Entry = Entry(name: string, data: Bytes)

  /** An archive's entry set is keyed by name, so no name occurs twice. */
  ghost predicate UniqueNames(entries: seq<Entry>) {
    forall i, j :: 0 <= i < j < |entries| ==> entries[i].name != entries[j].name
  }

  type Archive = entries: seq<Entry> | UniqueNames(entries) witness []

  /** The entry names, in archive order. */
  function Names(entries: seq<Entry>): (names: seq<string>)
    ensures |names| == |entries|
    ensures forall i :: 0 <= i < |entries| ==> names[i] == entries[i].name
  {
    seq(|entries|, i requires 0 <= i < |entries| => entries[i].name)
  }

  /**
   * `find_entry(name)` followed by `read(name)`: the bytes of the entry with
   * that name, or None when the archive has no such entry.
   */
  function Read(a: Archive, name: string): (r: Option<Bytes>)
    ensures r.Some? <==> name in Names(a)
    ensures forall i :: 0 <= i < |a| && a[i].name == name ==> r == Some(a[i].data)
  {
    if a == [] then None
    else if a[0].name == name then Some(a[0].data)
    else
      var rest: Archive := a[1..];
      assert forall i :: 1 <= i < |a| ==> a[i] == rest[i - 1];
      Read(rest, name)
  }
}
